=== FILE: README.md ===
# SPECS `.xy` loader: a Dafny model

This project models the parsing core of `data_loading.py`. That file reads the text
export of a SPECS photoemission setup (an `.xy` file) into a nested dictionary, then
rearranges one trial of it into cuts for an xarray. The model covers three pieces:

* **`filter_meta_data`**: the key/value tokenizer used at every level of the file.
  Each line is split on runs of paired whitespace. Whitespace-only pieces are dropped
  and one leading `#` is stripped. When more than two fields survive, the first is
  dropped. All whitespace is squeezed out. The first two tokens become one dictionary
  entry, and a line with fewer than two tokens is skipped. (Module `Metadata`, on top
  of `Text` and `OrderedMap`.)
* **`load_xy`**, without the file read and without `np.loadtxt`. The lines are
  stripped and the global header is cut at the `#   Time Zone Format:         UTC`
  sentinel. The remaining lines are split into groups at every line containing
  `Group`. Each group is split into trials, one per `OrdinateRange:` line. A trial's
  settings run from the group's first line when there is one trial, and from the
  trial's `Region:` line otherwise, up to and including the line two past its
  `OrdinateRange:` line; its data starts five lines past that line. Each trial is split
  into cycles by the loop over its lines, which stores an entry whenever a `Cycle:`
  line closes the cycle before it. Finally the captured column label is back-filled
  into every entry, and each trial's settings are merged with its cycles. (Modules
  `LoadXy` and `CycleScan`, with `Lines` for Python's list slicing and searching,
  and `Tree` for the resulting document.)
* **`load_to_xarray` up to the numpy conversion.** It looks up the group and trial,
  with return codes 1 and 2 for a missing name. It folds the trial's string entries
  into the shared settings. It groups the trial's cycle blocks into cuts: one cut
  below 500 keys, otherwise numbered by the key's eighth and ninth characters. It
  reads the document's final curve and applies the "last cut is one short" patch.
  (Module `Reconstruct`.)

Modelling choices:

* Python dictionaries are insertion-ordered association lists (`OrderedMap.OMap`).
  Assigning an existing key overwrites it in place; a new key is appended.
* Exceptions are `Result` errors. `load_xy` can raise three of them:
  * `MissingSentinel`, the `ValueError` from `list.index`;
  * `MissingRegion`, the `IndexError` from `group_R_indexes[i]`;
  * `NotANumber`, the `ValueError` from `float`.
* `load_to_xarray` can raise `BadCutIndex`, `EmptyDictionary`, `ShortSetting`,
  `NotACurve` and `TooFewCuts`.
* The `IndexError`s the source catches are modelled as the paths they take.
* Whether Python's `float` accepts a field is the parameter `isFloat`. A data row
  keeps its two field texts.
* `load_to_xarray` updates `data['settings']` in place. The model returns the
  updated document next to the outcome.
* The cut loop takes the function that reads a cycle number from a key as a
  parameter. The call passes `CutIndex`, which is `int(re.sub(',', '', key[7:9]))`.
  The lemmas about the loop hold for any such function.

The model follows the code in these details:

* Trial settings run up to and including the line two past the `OrdinateRange:`
  line, and trial data starts five lines past it (the stored index is `+3`, the
  settings slice stops before it and the data slice adds `+2`).
* A group with several `OrdinateRange:` lines and fewer `Region:` lines raises.
* The 500 threshold counts every key of the trial, settings included.
* A data line whose first field `float` rejects raises. A line with one acceptable
  field is skipped.

## Model

| member | source | states |
|---|---|---|
| Text.Strip | data_loading.py:35 | `l.strip()` leaves no whitespace at either end and is the infix of the line between a whitespace-only prefix and suffix |
| Text.StripBlankThenWord | data_loading.py:51 | stripping a whitespace-only prefix off a word that neither starts nor ends with whitespace gives exactly that word |
| Text.Rfind | data_loading.py:50 | `rfind` returns -1 or a position where the substring occurs, and no occurrence starts after it |
| Text.Split | data_loading.py:113 | the pieces of `line.split('  ')` joined back with the separator give the line, no piece contains the separator, and each cut is at the leftmost occurrence: one piece exactly when the separator does not occur, the first piece ends where it first occurs |
| Text.RegexSplitShape | data_loading.py:7 | `re.split(r'(\s\s)+', s)` alternates pieces with captured two-character whitespace separators, and no piece contains a whitespace pair |
| Text.PairMatch | data_loading.py:7 | the split cuts at the leftmost whitespace pair; the greedy match takes whitespace two characters at a time, and the group captures its last two characters |
| Text.ParseInt | data_loading.py:200 | `int` succeeds only on text with a non-empty stripped part and no U+001C to U+001F character |
| Text.ParseIntDecimal | data_loading.py:200 | `int` reads back the decimal text of every natural number |
| Text.ParseIntInfoSeparator | data_loading.py:200 | a U+001C before a digit makes `int` fail, although `str.strip` would remove it |
| Text.ParseIntRejects | data_loading.py:200 | `int` fails when the stripped text holds a non-digit anywhere but a leading sign, as in `ab`, `1-` or a lone `-` |
| Text.ParseIntBlank | data_loading.py:200 | `int` fails on text that is empty or all whitespace |
| Text.ParseIntDigits | data_loading.py:200 | a bare run of digits reads as its decimal value |
| Text.ParseIntSigned | data_loading.py:200 | a `-` or `+` in front of a decimal gives the negated or the same value |
| Text.ParseIntPadded | data_loading.py:200 | leading zeros do not change the value read, so `05` reads as 5 |
| Text.RemoveCommas | data_loading.py:200 | `re.sub(',', '', s)` leaves no comma, and keeps a single character other than a comma |
| Text.RemoveCommasAppend | data_loading.py:200 | removing commas works piece by piece, so every other character is kept in order |
| Text.RemoveSpaces | data_loading.py:15 | `re.sub(r'\s+', '', s)` leaves no whitespace, and keeps a single non-whitespace character |
| Text.RemoveSpacesAppend | data_loading.py:15 | removing whitespace works piece by piece, so every other character is kept in order |
| Text.RemoveAllAppend | data_loading.py:15 | removing the characters of a class from a concatenation is the concatenation of the removals |
| Text.ContainsIffOccurs | data_loading.py:46 | `sub in s` holds exactly when `sub` occurs at some position of `s` |
| OrderedMap.Put | data_loading.py:18 | a dictionary assignment makes the key hold the value and leaves every other key alone; an existing key keeps its place, a new key goes last |
| OrderedMap.GetPutAll | data_loading.py:125-126 | after a run of assignments (`update`) a key holds the last value assigned to it, or its old value when none was |
| OrderedMap.PutAllDistinct | data_loading.py:63 | assigning pairs with distinct keys into an empty dictionary gives exactly those pairs, in order |
| Lines.Slice | data_loading.py:59-61 | a Python slice clamps both bounds to the list and returns the elements between them, in order |
| Lines.FirstIndex | data_loading.py:36 | `list.index` finds the first equal element, and finds nothing exactly when there is none |
| Lines.IndicesOfComplete | data_loading.py:47 | every line containing the marker is listed |
| Metadata.FilterMetaData | data_loading.py:3-21 | the dictionary never repeats a key, and no key or value contains whitespace |
| Metadata.ParseLine | data_loading.py:10-18 | the entry a line yields has no whitespace in its key or its value |
| Metadata.SingleWordIgnored | data_loading.py:17-20 | a line of one space-free word yields no entry |
| Metadata.BlankLineIgnored | data_loading.py:10-20 | a whitespace-only line yields no entry |
| Metadata.RegexSplitBlank | data_loading.py:7-10 | every piece of the split of a whitespace-only line is whitespace-only, so the filter drops them all |
| Metadata.FilterMetaDataLastWins | data_loading.py:9-20 | each key holds the value of the last line whose entry has that key, and a key no line yields is absent |
| Metadata.ShortLineIgnored | data_loading.py:17-20 | a line with fewer than two tokens changes nothing, wherever it stands |
| Metadata.ParseRendered | data_loading.py:7-18 | the line `k  v` of two plain words yields the entry `k` to `v` |
| Metadata.FilterMetaDataRender | data_loading.py:3-21 | round trip: rendering a dictionary of plain words as `k  v` lines and tokenizing them gives the dictionary back, in order |
| Metadata.ThreeFieldSplit | data_loading.py:7 | a `#`, key, value, trailing-word line splits into its four words and the separators between them |
| Metadata.ExtraFieldDropped | data_loading.py:11-13 | a commented line `#  k<run>v  x` yields `k` to `v`: the empty first field is dropped and the trailing word ignored |
| Metadata.AnalyzerLensExample | data_loading.py:10-18 | an example header line, `#  AnalyzerLens:    MM_Momentum  Fixed` (the setting read at line 228), yields `AnalyzerLens:` to `MM_Momentum` |
| CycleScan.Classify | data_loading.py:110-116 | a line is empty exactly when it has no characters and a parameter line exactly when it starts with `#`; any other line is rejected exactly when `float` refuses its first field or its second field exists and is refused, skipped exactly when it has one acceptable field, and otherwise is the row of its first two fields |
| CycleScan.Close | data_loading.py:99-109 | a `Cycle:` line stores the gathered parameters and rows under the pending name, changes no other key, empties the buffers, makes the line minus its first two characters the pending name, and takes the label from the buffer only when it holds more than three parameter lines |
| CycleScan.Gather | data_loading.py:110-116 | the line fails exactly when it is a rejected data line; a parameter line appends its text minus two characters to the parameters, a data line appends its row, an empty or one-field line changes nothing, and no line changes the stored entries, the pending name or the label |
| CycleScan.Scan | data_loading.py:97-116 | the loop over a trial's lines fails, with the float error, exactly when one of the lines is a rejected data line |
| CycleScan.BackFill | data_loading.py:120-121 | every cycle entry gains `ColumnLabels:` with the label; its rows, its other parameters and the keys are unchanged |
| CycleScan.ScanMatches | data_loading.py:91-116 | the loop fails exactly when a data line is rejected; otherwise its state equals the reference built from the segments between `Cycle:` lines |
| CycleScan.StepMatches | data_loading.py:97-116 | one more line moves the loop state exactly as it moves the segment reference |
| CycleScan.EntriesDistinctNames | data_loading.py:99-101 | with distinct cycle names (which fails when a `Cycle:` line repeats the initial name) there is one entry per `Cycle:` line, in file order, each holding the segment that line closes |
| CycleScan.FirstEntry | data_loading.py:96-101 | once a `Cycle:` line exists, the first key is `Cycle: 0, Curve: 0`; it holds the lines before the first `Cycle:` line when no `Cycle:` line repeats that name |
| CycleScan.LaterCycleWins | data_loading.py:99-101 | whatever the names, a segment whose name no later `Cycle:` line repeats is the value stored under that name |
| CycleScan.RepeatedFirstName | data_loading.py:96-101 | when the first `Cycle:` line repeats `Cycle: 0, Curve: 0` and no later one does, that key holds the first cycle's segment, overwriting the lines before it |
| CycleScan.TailNotStored | data_loading.py:97-109 | lines after the last `Cycle:` line are never stored and do not change the label |
| CycleScan.TrialLabels | data_loading.py:104-106 | every entry of a trial is a cycle whose `ColumnLabels:` is the label of the last closed segment with more than three parameter lines |
| CycleScan.LabelOf | data_loading.py:106 | the label neither starts nor ends with whitespace |
| CycleScan.LabelOfLastColumn | data_loading.py:104-106 | when the second-to-last parameter line ends with a run of three spaces and a column that holds no such run and has no whitespace at either end, the label is exactly that column, inner spaces included |
| Text.LastOfSplit | data_loading.py:106 | the last piece of `split(sep)` is a suffix of the text holding no separator; it is the whole text or directly follows a separator |
| CycleScan.TrialCycles | data_loading.py:89-123 | a trial's dictionary fails only on a rejected data line and never repeats a key |
| LoadXy.HeaderEnd | data_loading.py:36 | the header ends at the first sentinel line; without one the loader raises |
| LoadXy.LoadXy | data_loading.py:23-134 | it fails with the missing-sentinel error exactly when no stripped line is the sentinel; each flag selects its own answer, which it gives whenever the sentinel is present |
| LoadXy.SettingsIgnoreRest | data_loading.py:35-40 | with ONLY_SETTINGS the answer is the same whatever follows the sentinel |
| LoadXy.GroupName | data_loading.py:50-51 | a group name neither starts nor ends with whitespace |
| LoadXy.GroupNameLastColumn | data_loading.py:50-51 | a `Group` line whose last column follows four spaces, and holds no run of four spaces itself, is named by that column, inner spaces included |
| LoadXy.GroupSpans | data_loading.py:56-61 | there is one span per `Group` line, and none is empty |
| LoadXy.SpansPartitionBody | data_loading.py:56-61 | the group spans, laid end to end, are the body from the first `Group` line on |
| LoadXy.SpanHoldsOneGroupLine | data_loading.py:56-61 | each span starts at its `Group` line and holds no other one |
| LoadXy.RawGroupsKeys | data_loading.py:63 | the dictionary of spans has a key exactly when some group line has that name |
| LoadXy.LaterSpanWins | data_loading.py:63 | a name that no later group line repeats keeps its own span |
| LoadXy.GroupFromSpan | data_loading.py:63-67 | in the assembled answer, a name that no later group line repeats holds the group built from its own span minus the trailing line |
| LoadXy.NamesAgreeWithGroups | data_loading.py:46-63 | the ONLY_GROUPNAMES answer lists exactly the keys of the full answer's groups |
| LoadXy.TrialSlices | data_loading.py:71-87 | a group fails exactly when it has several `OrdinateRange:` lines and fewer `Region:` lines, and otherwise has one trial per `OrdinateRange:` line |
| LoadXy.SingleTrialBody | data_loading.py:78-80 | with one `OrdinateRange:` line there is one trial, and its data lines hold no `OrdinateRange:` line |
| LoadXy.TrialBodyBeforeNextRegion | data_loading.py:82-87 | with several trials, each `Region:` line coming before its `OrdinateRange:` line, a trial's data lines hold no `Region:` line |
| LoadXy.ScanTrials | data_loading.py:89-123 | one dictionary per trial, in order; the trial list fails exactly when scanning one trial fails |
| LoadXy.GroupTrialNames | data_loading.py:80-83 | a group's trials are named `Trial 1` ... `Trial n`, one per `OrdinateRange:` line, all distinct |
| LoadXy.GroupTrialContents | data_loading.py:125-128 | trial `i` is its own settings updated with its own cycles; a shared key holds the cycle |
| LoadXy.BuildGroup | data_loading.py:67-128 | a group holds one trial per `OrdinateRange:` line, and fails exactly when its slicing or the scan of one of its trials fails |
| LoadXy.BuildGroups | data_loading.py:66-128 | the loop over the groups keeps their keys in order, replaces each span by the group built from it minus its last line, and fails exactly when building one of them fails, with that group's error |
| LoadXy.Assemble | data_loading.py:63-134 | the full answer keeps the header settings, has exactly the group keys of the span dictionary, holds under each the group built from its span, and fails exactly when building one group fails |
| LoadXy.FullFails | data_loading.py:35-134 | past the header, the full load fails exactly when building one group fails |
| LoadXy.LoadedGroup | data_loading.py:35-134 | in the document the loader returns, a name that no later group line repeats holds the group built from its own span minus the trailing line |
| Reconstruct.Lookup | data_loading.py:149-166 | code 1 exactly when the group is missing, code 2 exactly when the group exists and the trial is missing, otherwise the stored trial |
| Reconstruct.MergeSettings | data_loading.py:169-174 | the update keeps every existing key in its place and never repeats a key |
| Reconstruct.MergeSettingsGet | data_loading.py:169-174 | after the update a key holds the trial's string value when the trial has one, and its old setting otherwise |
| Reconstruct.SettingsAfterCall | data_loading.py:168-174 | after the call each key holds the trial's string value when the trial has one, and its old setting otherwise |
| Reconstruct.CutStep | data_loading.py:182-205 | an entry without rows changes nothing; with one cut the rows join the open cut; otherwise an unreadable number fails, the open cut's number joins it, the next number closes it and opens a new one, and any other number is dropped |
| Reconstruct.CutLoop | data_loading.py:182-205 | the loop closes one cut per number passed, never closes a cut in the one-cut branch, and fails only on an unreadable number |
| Reconstruct.CutsHoldOwnNumbers | data_loading.py:195-205 | whatever the numbering, cut `k` holds only blocks numbered `k`, in their order, and the open cut only blocks numbered like it |
| Reconstruct.OneCutRecords | data_loading.py:184-192 | below 500 keys every non-empty cycle block goes, in order, into one open cut, and nothing fails |
| Reconstruct.MultiCutFails | data_loading.py:195-205 | from 500 keys up, the loop fails exactly when a non-empty cycle's key does not yield a number |
| Reconstruct.SteadyCuts | data_loading.py:195-205 | with steady numbering (each number repeats the previous one or adds one), cut `k` holds exactly the blocks numbered `k`, in order |
| Reconstruct.SteadyResult | data_loading.py:177-216 | a steady trial of 500 keys or more comes out as its numbered cuts, then patched |
| Reconstruct.FinalCurve | data_loading.py:208-211 | the read fails on an empty dictionary exactly when one of the three levels is empty; a curve gives its rows; a setting fails exactly when it is shorter than two characters and otherwise gives its second character |
| Reconstruct.FinalCurveLastEntries | data_loading.py:208-211 | with no repeated key on the way, the value read is the last entry of the last trial of the last group |
| Reconstruct.FinalCurveEmpty | data_loading.py:208-211 | with no repeated key on the way, the read fails on an empty dictionary exactly when the document, its last group or that group's last trial is empty |
| Reconstruct.AppendFinal | data_loading.py:216 | the final rows are appended to the last cut and nothing else changes |
| Reconstruct.PatchFinalCutAsWritten | data_loading.py:215-216 | as written, the patch fails whenever there is a single cut, since it reads the cut before the last one, and otherwise fails only when a differing last cut meets a final value that is not a curve; the earlier cuts never change |
| Reconstruct.PatchFinalCut | data_loading.py:215-216 | corrected patch: a single cut is left as it is; the earlier cuts never change; the last cut gains the final rows exactly when its length differs from the cut before it, and fails there when the final value is not a curve |
| Reconstruct.PatchEvensShortCut | data_loading.py:215-216 | a last cut one block short of the one before it is brought to the same length |
| Reconstruct.AsWrittenNeedsTwoCuts | data_loading.py:215 | the patch as written fails exactly when there is one cut, and otherwise agrees with the corrected patch |
| Reconstruct.LoadToXarray | data_loading.py:141-216 | with the corrected patch at line 215: the return codes are as in the lookup; an early return leaves the document alone; the groups are never changed |
| Reconstruct.LoadToXarrayAsWritten | data_loading.py:141-216 | with the patch as written: the same return codes, an early return leaves the document alone, and the groups are never changed |
| Reconstruct.AsWrittenAgrees | data_loading.py:168-216 | the two calls update the settings alike, and give the same result unless the patch as written fails for want of a second cut |
| Reconstruct.OneCutResult | data_loading.py:182-216 | with the corrected patch, a trial below 500 keys comes out as one cut holding all its non-empty blocks, in order |
| Reconstruct.OneCutAsWrittenFails | data_loading.py:182-216 | as written, a trial below 500 keys never reaches the numpy stage |

## Left out

- File reading (lines 32-33): the model starts from the list of lines.
- `np.loadtxt` at line 44: its result is never used, but it runs before ONLY_GROUPNAMES
  is looked at, so a file numpy rejects would raise there. That case is not modelled.
- Float parsing: Python's `float` is the parameter `isFloat`, and rows keep their
  text. `np.array` on the rows is left out too.
- Unicode digits: `int` accepts ASCII digits only here, not other Unicode decimal
  digits, and no underscore separators (irrelevant for a two-character read).
  `str.strip` and `re`'s `\s` use the full `str.isspace` set; `int` fails on the
  separators U+001C to U+001F, which `str.isspace` counts as whitespace.
- Everything from line 218 on is left out: the prints, the numpy reshaping, and the
  scan-variable, coordinate and imaging-mode reads that build the xarray.
- The prints at lines 155-156 and 164-165 are left out. The listing of the available
  names they print is not modelled; only the return codes are.
- The module-level call at line 253 and `tight_binding_example.py` are not part of
  this model.
- Reconstruct.AppendFinal: when the final value is a setting string, the source
  appends its second character and fails only later in numpy. The model reports
  this as the `NotACurve` error at the append.
- LoadXy.GroupNames: only its length is stated in its contract. Each name is
  characterised by LoadXy.GroupNameLastColumn for a line whose last column follows
  four spaces; lines without a four-space run, where `rfind` gives -1, are not
  characterised further.
- CycleScan.LabelOf: only the shape of the label is stated in its contract. The
  label is characterised by CycleScan.LabelOfLastColumn for a line whose last column
  follows three spaces. Lines without such a run, where the whole stripped line is
  the label, are not characterised further.
- Reconstruct.CutIndex: `key[7:9]` reads two characters, so cycle number 100 and
  above is misread. The model keeps the two-character read as written and proves
  nothing about larger numbers.

## Findings

| source | as written | input that shows it | evidently intended | confidence | as-written member | corrected member |
|---|---|---|---|---|---|---|
| data_loading.py:215 | `len(cuts[-2]) != len(cuts[-1])` is read after the loop even when `cuts` holds a single cut | any trial with fewer than 500 keys (the one-cut branch never closes a cut), e.g. a trial of one cycle with one row | compare with the previous cut only when there is one; a single cut is left as it is | not executed | Reconstruct.PatchFinalCutAsWritten (Reconstruct.OneCutAsWrittenFails) | Reconstruct.PatchFinalCut (Reconstruct.OneCutResult) |

=== FILE: cycle_scan.dfy ===
/** The per-trial loop of `load_xy`: one pass over a trial's lines that stores a cycle
    entry each time a `Cycle:` line closes the cycle gathered before it, followed by
    the back-fill of the captured column label into every entry. */
module CycleScan {
  import opened Wrappers
  import opened Text
  import opened OrderedMap
  import opened Lines
  import opened Metadata
  import opened Tree

  /** A line starting with `#`: its text from the third character on is a parameter. */
  predicate IsParamLine(line: string) {
    |line| > 0 && line[0] == '#'
  }

  /** How the loop body treats a line once any `Cycle:` handling is done. */
  datatype LineKind =
    | Empty           // `line[0]` raises IndexError, which the loop swallows
    | Param           // a parameter line
    | Data(row: Row)  // two fields that `float` accepts
    | Short           // one field `float` accepts: `numbers[1]` raises IndexError, swallowed
    | Bad             // `float` rejects a field: ValueError escapes the loader

  /** The fields of a data line are its pieces between double spaces; `isFloat` stands
      for Python's `float` accepting a piece. */
  function Classify(line: string, isFloat: string -> bool): (k: LineKind)
    ensures k.Empty? <==> |line| == 0
    ensures k.Param? <==> IsParamLine(line)
    ensures k.Data? ==> isFloat(k.row.ordinate) && isFloat(k.row.value)
    ensures k.Data? ==> forall j :: !OccursAt(k.row.ordinate, "  ", j) && !OccursAt(k.row.value, "  ", j)
    ensures |line| > 0 && !IsParamLine(line) ==>
      var fs := Split(line, "  ");
      && (k.Bad? <==> !isFloat(fs[0]) || (|fs| >= 2 && !isFloat(fs[1])))
      && (k.Short? <==> isFloat(fs[0]) && |fs| == 1)
      && (k.Data? ==> |fs| >= 2 && k.row == Row(fs[0], fs[1]))
  {
    if |line| == 0 then Empty
    else if line[0] == '#' then Param
    else
      var fields := Split(line, "  ");
      if !isFloat(fields[0]) then Bad
      else if |fields| < 2 then Short
      else if !isFloat(fields[1]) then Bad
      else Data(Row(fields[0], fields[1]))
  }

  /** The loop's variables: the dictionary built so far, the name waiting for the next
      `Cycle:` line (`cycle_names[0]`), the parameter lines and data rows gathered since
      the last `Cycle:` line, and the captured column label (`coordinates`). */
  datatype ScanState = ScanState(
    entries: OMap<Value>,
    pending: string,
    params: seq<string>,
    rows: seq<Row>,
    coordinates: string)

  const Start := ScanState([], FirstCycleName, [], [], "")

  /** `params[-2].split('   ')[-1].strip()`: the stripped text after the last run of
      three spaces on the second-to-last parameter line. */
  function LabelOf(params: seq<string>): (r: string)
    requires |params| >= 2
    ensures r == [] || (!IsSpace(r[0]) && !IsSpace(r[|r| - 1]))
  {
    Strip(Last(Split(params[|params| - 2], "   ")))
  }

  /** A second-to-last parameter line whose last column follows a run of three spaces
      gives that column as the label, inner spaces included (as in `Kinetic Energy`),
      when the column has no whitespace at either end and no run of three spaces of
      its own. */
  lemma LabelOfLastColumn(params: seq<string>, p: string, w: string)
    requires |params| >= 2 && params[|params| - 2] == p + "   " + w
    requires |w| > 0 && !IsSpace(w[0]) && !IsSpace(w[|w| - 1])
    requires forall j :: !OccursAt(w, "   ", j)
    ensures LabelOf(params) == w
  {
    var line := p + "   " + w;
    LastOfSplit(line, "   ");
    StripLastPiece(line, p, w, Last(Split(line, "   ")));
    LabelIsLastPiece(params, line);
  }

  lemma LabelIsLastPiece(params: seq<string>, line: string)
    requires |params| >= 2 && params[|params| - 2] == line
    ensures LabelOf(params) == Strip(Last(Split(line, "   ")))
  {
  }

  /** A piece that can end a split of `p + "   " + w` at runs of three spaces strips
      to `w`. */
  lemma StripLastPiece(line: string, p: string, w: string, r: string)
    requires line == p + "   " + w
    requires |w| > 0 && !IsSpace(w[0]) && !IsSpace(w[|w| - 1])
    requires forall j :: !OccursAt(w, "   ", j)
    requires EndPiece(line, "   ", r)
    ensures Strip(r) == w
  {
    var e := |line| - |r|;
    assert line[e..] == r;
    assert |p| < e by {
      assert OccursAt(line, "   ", |p|) by {
        assert line[|p|..|p| + 3] == "   ";
      }
      CutAfterRun(line, |p|, e);
    }
    CutBeforeWord(p, w, e);
    var sp := line[e..|p| + 3];
    RunRemnant(p, w, e);
    StripBlankThenWord(sp, w);
  }

  /** A cut that leaves no run of three spaces comes after every such run. */
  lemma CutAfterRun(line: string, i: nat, e: nat)
    requires OccursAt(line, "   ", i)
    requires e <= |line|
    requires forall j :: !OccursAt(line[e..], "   ", j)
    ensures i < e
  {
    RunInSuffix(line, i, e);
  }

  lemma RunInSuffix(line: string, i: nat, e: nat)
    requires OccursAt(line, "   ", i) && e <= |line|
    ensures e <= i ==> OccursAt(line[e..], "   ", i - e)
  {
    if e <= i {
      assert line[e..][i - e..i - e + 3] == line[i..i + 3];
    }
  }

  /** In `p + "   " + w`, a run of three spaces ending past `p + "   "` would hold the
      first character of `w` or lie inside `w`. */
  lemma CutBeforeWord(p: string, w: string, e: nat)
    requires |w| > 0 && !IsSpace(w[0])
    requires forall j :: !OccursAt(w, "   ", j)
    requires e >= 3 && OccursAt(p + "   " + w, "   ", e - 3)
    ensures e <= |p| + 3
  {
    var line := p + "   " + w;
    forall j | |p| < j
      ensures !OccursAt(line, "   ", j)
    {
      if j + 3 <= |line| {
        if j >= |p| + 3 {
          assert line[j..j + 3] == w[j - |p| - 3..j - |p|];
          assert !OccursAt(w, "   ", j - |p| - 3);
        } else {
          assert line[|p| + 3] == w[0];
          assert line[j..j + 3][|p| + 3 - j] == w[0];
        }
      }
    }
  }

  /** Cutting `p + "   " + w` inside its run of three spaces leaves blanks, then `w`. */
  lemma RunRemnant(p: string, w: string, e: nat)
    requires |p| < e <= |p| + 3
    ensures var line := p + "   " + w;
      Blank(line[e..|p| + 3]) && line[e..] == line[e..|p| + 3] + w
  {
    var line := p + "   " + w;
    var sp := line[e..|p| + 3];
    assert sp == "   "[e - |p|..];
    assert line[e..] == sp + w;
  }

  /** The `Cycle:` branch: store what was gathered under the pending name, capture the
      label when more than three parameter lines were gathered, and make the line minus
      its first two characters the next pending name. */
  function Close(st: ScanState, line: string): (r: ScanState)
    ensures Get(r.entries, st.pending) == Some(Curve(FilterMetaData(st.params), st.rows))
    ensures forall k :: k != st.pending ==> Get(r.entries, k) == Get(st.entries, k)
    ensures r.params == [] && r.rows == []
    ensures r.pending == Drop(line, 2)
    ensures r.coordinates == if |st.params| > 3 then LabelOf(st.params) else st.coordinates
  {
    var coordinates := if |st.params| > 3 then LabelOf(st.params) else st.coordinates;
    ScanState(Put(st.entries, st.pending, Curve(FilterMetaData(st.params), st.rows)), Drop(line, 2), [], [], coordinates)
  }

  /** The second half of the loop body, run for every line. */
  function Gather(st: ScanState, line: string, isFloat: string -> bool): (r: Result<ScanState, ParseError>)
    ensures r.Err? <==> Classify(line, isFloat).Bad?
    ensures r.Err? ==> r.error.NotANumber?
    ensures r.Ok? ==> r.value.entries == st.entries && r.value.pending == st.pending && r.value.coordinates == st.coordinates
    ensures r.Ok? && IsParamLine(line) ==> r.value.params == st.params + [Drop(line, 2)] && r.value.rows == st.rows
    ensures r.Ok? && Classify(line, isFloat).Data? ==>
      r.value.rows == st.rows + [Classify(line, isFloat).row] && r.value.params == st.params
    ensures (|line| == 0 || Classify(line, isFloat).Short?) ==> r == Ok(st)
  {
    match Classify(line, isFloat)
    case Empty => Ok(st)
    case Short => Ok(st)
    case Param => Ok(st.(params := st.params + [Drop(line, 2)]))
    case Data(row) => Ok(st.(rows := st.rows + [row]))
    case Bad => Err(NotANumber(line))
  }

  /** One iteration of `for line in trial`. */
  function Step(st: ScanState, line: string, isFloat: string -> bool): Result<ScanState, ParseError> {
    Gather(if Contains(line, CycleMarker) then Close(st, line) else st, line, isFloat)
  }

  /** The whole loop over a trial's lines; the first rejected data line ends it. */
  function Scan(lines: seq<string>, isFloat: string -> bool): (r: Result<ScanState, ParseError>)
    ensures r.Err? ==> r.error.NotANumber?
    ensures r.Err? <==> exists i :: 0 <= i < |lines| && Classify(lines[i], isFloat).Bad?
    decreases |lines|
  {
    if |lines| == 0 then Ok(Start)
    else
      var st :- Scan(lines[..|lines| - 1], isFloat);
      Step(st, lines[|lines| - 1], isFloat)
  }

  /** `cycle_curve_dict[k][0]['ColumnLabels:'] = coordinates` for every entry: each
      cycle gains (or has overwritten) that one parameter and nothing else changes. */
  function BackFill(entries: OMap<Value>, coordinates: string): (r: OMap<Value>)
    ensures |r| == |entries|
    ensures Distinct(entries) ==> Distinct(r)
    ensures forall i :: 0 <= i < |r| ==> r[i].0 == entries[i].0 && r[i].1.Curve? == entries[i].1.Curve?
    ensures forall i :: 0 <= i < |r| && r[i].1.Curve? ==>
      && Get(r[i].1.params, ColumnLabelsKey) == Some(coordinates)
      && r[i].1.rows == entries[i].1.rows
      && (forall k :: k != ColumnLabelsKey ==> Get(r[i].1.params, k) == Get(entries[i].1.params, k))
  {
    seq(|entries|, i requires 0 <= i < |entries| =>
      (entries[i].0,
       match entries[i].1
       case Curve(ps, rows) => Curve(Put(ps, ColumnLabelsKey, coordinates), rows)
       case Scalar(s) => Scalar(s)))
  }

  /** The dictionary one trial's lines produce. */
  function TrialCycles(lines: seq<string>, isFloat: string -> bool): (r: Result<OMap<Value>, ParseError>)
    ensures r.Err? ==> r.error.NotANumber?
    ensures r.Ok? ==> Distinct(r.value)
  {
    var st :- Scan(lines, isFloat);
    ScanDistinct(lines, isFloat);
    Ok(BackFill(st.entries, st.coordinates))
  }

  /** The dictionary the loop builds never repeats a key. */
  lemma {:induction false} ScanDistinct(lines: seq<string>, isFloat: string -> bool)
    requires Scan(lines, isFloat).Ok?
    ensures Distinct(Scan(lines, isFloat).value.entries)
    decreases |lines|
  {
    if |lines| > 0 {
      ScanDistinct(lines[..|lines| - 1], isFloat);
    }
  }

  // ---------------------------------------------------------------------------
  // Reference: the trial cut at its `Cycle:` lines

  /** Positions of the `Cycle:` lines. */
  function Cycles(lines: seq<string>): seq<nat> {
    IndicesOf(lines, CycleMarker)
  }

  function SegStart(cs: seq<nat>, k: nat): nat
    requires k <= |cs|
  {
    if k == 0 then 0 else cs[k - 1]
  }

  /** Segment `k`: the lines before the first `Cycle:` line for `k == 0`, otherwise the
      `k`-th `Cycle:` line up to (not including) the next one or the end. */
  function Segment(lines: seq<string>, k: nat): seq<string>
    requires k <= |Cycles(lines)|
  {
    var cs := Cycles(lines);
    var hi := if k < |cs| then cs[k] else |lines|;
    assert k > 0 ==> cs[k - 1] < hi;
    lines[SegStart(cs, k)..hi]
  }

  /** The name segment `k` is stored under. */
  function CycleName(lines: seq<string>, k: nat): string
    requires k <= |Cycles(lines)|
  {
    if k == 0 then FirstCycleName else Drop(lines[Cycles(lines)[k - 1]], 2)
  }

  /** The parameter lines of a segment, each without its first two characters. */
  function ParamLines(seg: seq<string>): seq<string>
    decreases |seg|
  {
    if |seg| == 0 then []
    else if IsParamLine(seg[|seg| - 1]) then ParamLines(seg[..|seg| - 1]) + [Drop(seg[|seg| - 1], 2)]
    else ParamLines(seg[..|seg| - 1])
  }

  /** The accepted data rows of a segment. */
  function DataRows(seg: seq<string>, isFloat: string -> bool): seq<Row>
    decreases |seg|
  {
    if |seg| == 0 then []
    else match Classify(seg[|seg| - 1], isFloat)
      case Data(row) => DataRows(seg[..|seg| - 1], isFloat) + [row]
      case _ => DataRows(seg[..|seg| - 1], isFloat)
  }

  /** The entry segment `k` becomes. */
  function SegmentValue(lines: seq<string>, k: nat, isFloat: string -> bool): Value
    requires k <= |Cycles(lines)|
  {
    var seg := Segment(lines, k);
    Curve(FilterMetaData(ParamLines(seg)), DataRows(seg, isFloat))
  }

  /** The assignments the loop performs: one per `Cycle:` line, storing the segment
      that line closes. */
  function Stored(lines: seq<string>, isFloat: string -> bool): seq<(string, Value)> {
    var n := |Cycles(lines)|;
    seq(n, k requires 0 <= k < n => (CycleName(lines, k), SegmentValue(lines, k, isFloat)))
  }

  /** The label captured from the last closed segment with more than three parameter
      lines, or empty. */
  function LabelUpTo(lines: seq<string>, k: nat): string
    requires k <= |Cycles(lines)|
    decreases k
  {
    if k == 0 then ""
    else
      var ps := ParamLines(Segment(lines, k - 1));
      if |ps| > 3 then LabelOf(ps) else LabelUpTo(lines, k - 1)
  }

  predicate NoBadLine(lines: seq<string>, isFloat: string -> bool) {
    forall i :: 0 <= i < |lines| ==> !Classify(lines[i], isFloat).Bad?
  }

  /** The state after the loop, described by the segments. */
  predicate Matches(lines: seq<string>, isFloat: string -> bool, st: ScanState) {
    var n := |Cycles(lines)|;
    && st.entries == PutAll([], Stored(lines, isFloat))
    && st.pending == CycleName(lines, n)
    && st.params == ParamLines(Segment(lines, n))
    && st.rows == DataRows(Segment(lines, n), isFloat)
    && st.coordinates == LabelUpTo(lines, n)
  }

  // ---------------------------------------------------------------------------
  // How the reference moves when one line is appended

  lemma ClosedSegmentSnoc(lines: seq<string>, l: string, k: nat)
    requires k < |Cycles(lines)|
    ensures k < |Cycles(lines + [l])|
    ensures Segment(lines + [l], k) == Segment(lines, k)
    ensures CycleName(lines + [l], k) == CycleName(lines, k)
  {
    IndicesOfSnoc(lines, l, CycleMarker);
    var cs, cs' := Cycles(lines), Cycles(lines + [l]);
    assert cs'[..|cs|] == cs;
    var a := SegStart(cs, k);
    assert SegStart(cs', k) == a;
    assert cs'[k] == cs[k];
    assert Segment(lines, k) == lines[a..cs[k]];
    assert Segment(lines + [l], k) == (lines + [l])[a..cs[k]];
    assert (lines + [l])[a..cs[k]] == lines[a..cs[k]];
    if k > 0 {
      assert cs'[k - 1] == cs[k - 1];
      assert (lines + [l])[cs[k - 1]] == lines[cs[k - 1]];
    }
  }

  /** Facts shared by both cases of appending a line to the open segment. */
  lemma OpenSegmentSnocCommon(lines: seq<string>, l: string)
    ensures var cs := Cycles(lines);
      && Cycles(lines + [l])[..|cs|] == cs
      && Segment(lines, |cs|) == lines[SegStart(cs, |cs|)..]
      && SegStart(Cycles(lines + [l]), |cs|) == SegStart(cs, |cs|)
  {
    IndicesOfSnoc(lines, l, CycleMarker);
    var cs, cs' := Cycles(lines), Cycles(lines + [l]);
    assert cs'[..|cs|] == cs;
  }

  lemma OpenSegmentSnocName(lines: seq<string>, l: string)
    requires |Cycles(lines)| <= |Cycles(lines + [l])|
    ensures CycleName(lines + [l], |Cycles(lines)|) == CycleName(lines, |Cycles(lines)|)
  {
    OpenSegmentSnocCommon(lines, l);
    var cs, cs' := Cycles(lines), Cycles(lines + [l]);
    var n := |cs|;
    if n > 0 {
      assert cs'[n - 1] == cs[n - 1];
      assert (lines + [l])[cs[n - 1]] == lines[cs[n - 1]];
    }
  }

  /** A `Cycle:` line closes the open segment and opens a new one holding just itself. */
  lemma OpenSegmentSnocCycle(lines: seq<string>, l: string)
    requires Contains(l, CycleMarker)
    ensures var n := |Cycles(lines)|;
      && |Cycles(lines + [l])| == n + 1
      && Segment(lines + [l], n) == Segment(lines, n)
      && Segment(lines + [l], n + 1) == [l]
      && CycleName(lines + [l], n) == CycleName(lines, n)
      && CycleName(lines + [l], n + 1) == Drop(l, 2)
  {
    IndicesOfSnoc(lines, l, CycleMarker);
    OpenSegmentSnocCommon(lines, l);
    var cs, cs' := Cycles(lines), Cycles(lines + [l]);
    var n := |cs|;
    var a := SegStart(cs, n);
    assert cs' == cs + [|lines|];
    assert Segment(lines + [l], n) == (lines + [l])[a..|lines|];
    assert (lines + [l])[a..|lines|] == lines[a..];
    assert SegStart(cs', n + 1) == |lines|;
    assert Segment(lines + [l], n + 1) == (lines + [l])[|lines|..];
    assert (lines + [l])[|lines|..] == [l];
    assert (lines + [l])[|lines|] == l;
    OpenSegmentSnocName(lines, l);
  }

  /** Any other line joins the open segment. */
  lemma SnocSuffix<T>(xs: seq<T>, x: T, a: nat)
    requires a <= |xs|
    ensures (xs + [x])[a..] == xs[a..] + [x]
  {
  }

  lemma OpenSegmentSnocPlain(lines: seq<string>, l: string)
    requires !Contains(l, CycleMarker)
    ensures var n := |Cycles(lines)|;
      && |Cycles(lines + [l])| == n
      && Segment(lines + [l], n) == Segment(lines, n) + [l]
      && CycleName(lines + [l], n) == CycleName(lines, n)
  {
    CyclesSnocPlain(lines, l);
    var cs := Cycles(lines);
    var a := SegStart(cs, |cs|);
    OpenSegmentAt(lines, |cs|);
    OpenSegmentAt(lines + [l], |cs|);
    SnocSuffix(lines, l, a);
    OpenSegmentSnocName(lines, l);
  }

  lemma CyclesSnocPlain(lines: seq<string>, l: string)
    requires !Contains(l, CycleMarker)
    ensures Cycles(lines + [l]) == Cycles(lines)
  {
    IndicesOfSnoc(lines, l, CycleMarker);
    assert Cycles(lines) + [] == Cycles(lines);
  }

  /** The open segment runs from its start to the end of the lines. */
  lemma OpenSegmentAt(lines: seq<string>, n: nat)
    requires n == |Cycles(lines)|
    ensures Segment(lines, n) == lines[SegStart(Cycles(lines), n)..]
  {
  }

  lemma ParamLinesSnoc(seg: seq<string>, l: string)
    ensures ParamLines(seg + [l]) == ParamLines(seg) + if IsParamLine(l) then [Drop(l, 2)] else []
  {
    assert (seg + [l])[..|seg|] == seg;
  }

  lemma DataRowsSnoc(seg: seq<string>, l: string, isFloat: string -> bool)
    ensures DataRows(seg + [l], isFloat)
         == DataRows(seg, isFloat) + match Classify(l, isFloat) case Data(row) => [row] case _ => []
  {
    assert (seg + [l])[..|seg|] == seg;
  }

  lemma CyclesGrow(lines: seq<string>, l: string)
    ensures |Cycles(lines)| <= |Cycles(lines + [l])|
  {
    IndicesOfSnoc(lines, l, CycleMarker);
  }

  /** Segments with equal lines make equal entries. */
  lemma SameSegmentValue(lines: seq<string>, k: nat, lines': seq<string>, k': nat, isFloat: string -> bool)
    requires k <= |Cycles(lines)| && k' <= |Cycles(lines')|
    requires Segment(lines, k) == Segment(lines', k')
    ensures SegmentValue(lines, k, isFloat) == SegmentValue(lines', k', isFloat)
  {
  }

  /** The assignments of the closed segments are unaffected by an appended line. */
  lemma ClosedStoredSnoc(lines: seq<string>, l: string, isFloat: string -> bool)
    ensures |Stored(lines, isFloat)| <= |Stored(lines + [l], isFloat)|
    ensures Stored(lines + [l], isFloat)[..|Stored(lines, isFloat)|] == Stored(lines, isFloat)
  {
    CyclesGrow(lines, l);
    var a, b := Stored(lines + [l], isFloat), Stored(lines, isFloat);
    forall k | 0 <= k < |b|
      ensures a[k] == b[k]
    {
      ClosedSegmentSnoc(lines, l, k);
      SameSegmentValue(lines + [l], k, lines, k, isFloat);
    }
  }

  lemma StoredSnocPlain(lines: seq<string>, l: string, isFloat: string -> bool)
    requires !Contains(l, CycleMarker)
    ensures Stored(lines + [l], isFloat) == Stored(lines, isFloat)
  {
    OpenSegmentSnocPlain(lines, l);
    ClosedStoredSnoc(lines, l, isFloat);
  }

  lemma StoredSnocCycle(lines: seq<string>, l: string, isFloat: string -> bool)
    requires Contains(l, CycleMarker)
    ensures Stored(lines + [l], isFloat)
         == Stored(lines, isFloat) + [(CycleName(lines, |Cycles(lines)|), SegmentValue(lines, |Cycles(lines)|, isFloat))]
  {
    var n := |Cycles(lines)|;
    OpenSegmentSnocCycle(lines, l);
    ClosedStoredSnoc(lines, l, isFloat);
    SameSegmentValue(lines + [l], n, lines, n, isFloat);
    var a, b := Stored(lines + [l], isFloat), Stored(lines, isFloat);
    assert a == a[..n] + [a[n]];
  }

  lemma {:induction false} LabelUpToSnoc(lines: seq<string>, l: string, k: nat)
    requires k <= |Cycles(lines)|
    ensures k <= |Cycles(lines + [l])|
    ensures LabelUpTo(lines + [l], k) == LabelUpTo(lines, k)
    decreases k
  {
    CyclesGrow(lines, l);
    if k == 0 {
      assert LabelUpTo(lines + [l], 0) == "" == LabelUpTo(lines, 0);
    } else {
      var j: nat := k - 1;
      ClosedSegmentSnoc(lines, l, j);
      LabelUpToSnoc(lines, l, j);
      assert Segment(lines + [l], j) == Segment(lines, j);
      assert LabelUpTo(lines + [l], j) == LabelUpTo(lines, j);
      assert 0 < k <= |Cycles(lines + [l])|;
      assert k <= |Cycles(lines)|;
      assert Segment(lines + [l], k - 1) == Segment(lines, k - 1);
      assert LabelUpTo(lines + [l], k - 1) == LabelUpTo(lines, k - 1);
      LabelStep(lines + [l], lines, k);
    }
  }

  /** The label after segment `k - 1` depends only on that segment and the label
      before it. */
  lemma LabelStep(lines: seq<string>, lines': seq<string>, k: nat)
    requires 0 < k <= |Cycles(lines)| && k <= |Cycles(lines')|
    requires Segment(lines, k - 1) == Segment(lines', k - 1)
    requires LabelUpTo(lines, k - 1) == LabelUpTo(lines', k - 1)
    ensures LabelUpTo(lines, k) == LabelUpTo(lines', k)
  {
  }

  lemma StepMatchesPlain(lines: seq<string>, l: string, isFloat: string -> bool, st: ScanState)
    requires Matches(lines, isFloat, st)
    requires !Contains(l, CycleMarker)
    requires Gather(st, l, isFloat).Ok?
    ensures Matches(lines + [l], isFloat, Gather(st, l, isFloat).value)
  {
    var n := |Cycles(lines)|;
    OpenSegmentSnocPlain(lines, l);
    StoredSnocPlain(lines, l, isFloat);
    LabelUpToSnoc(lines, l, n);
    ParamLinesSnoc(Segment(lines, n), l);
    DataRowsSnoc(Segment(lines, n), l, isFloat);
  }

  lemma StepMatchesCycle(lines: seq<string>, l: string, isFloat: string -> bool, st: ScanState)
    requires Matches(lines, isFloat, st)
    requires Contains(l, CycleMarker)
    requires Gather(Close(st, l), l, isFloat).Ok?
    ensures Matches(lines + [l], isFloat, Gather(Close(st, l), l, isFloat).value)
  {
    OpenSegmentSnocCycle(lines, l);
    CycleEntries(lines, l, isFloat, st);
    CycleLabel(lines, l, isFloat, st);
    CycleOpens(lines, l, isFloat, Close(st, l));
  }

  /** A `Cycle:` line stores the open segment under the pending name. */
  lemma CycleEntries(lines: seq<string>, l: string, isFloat: string -> bool, st: ScanState)
    requires Matches(lines, isFloat, st)
    requires Contains(l, CycleMarker)
    ensures PutAll([], Stored(lines + [l], isFloat)) == Close(st, l).entries
  {
    var n := |Cycles(lines)|;
    var ps := Stored(lines, isFloat);
    var closed := (CycleName(lines, n), SegmentValue(lines, n, isFloat));
    StoredSnocCycle(lines, l, isFloat);
    assert (ps + [closed])[..|ps|] == ps;
  }

  /** A `Cycle:` line captures the label of the segment it closes, if any. */
  lemma CycleLabel(lines: seq<string>, l: string, isFloat: string -> bool, st: ScanState)
    requires Matches(lines, isFloat, st)
    requires Contains(l, CycleMarker)
    ensures |Cycles(lines + [l])| == |Cycles(lines)| + 1
    ensures LabelUpTo(lines + [l], |Cycles(lines)| + 1) == Close(st, l).coordinates
  {
    OpenSegmentSnocCycle(lines, l);
    LabelUpToSnoc(lines, l, |Cycles(lines)|);
  }

  /** After a `Cycle:` line the open segment is that line alone. */
  lemma CycleOpens(lines: seq<string>, l: string, isFloat: string -> bool, st: ScanState)
    requires Contains(l, CycleMarker)
    requires st.params == [] && st.rows == [] && st.pending == Drop(l, 2)
    requires Gather(st, l, isFloat).Ok?
    ensures |Cycles(lines + [l])| == |Cycles(lines)| + 1
    ensures var n, st' := |Cycles(lines)| + 1, Gather(st, l, isFloat).value;
      && st'.pending == CycleName(lines + [l], n)
      && st'.params == ParamLines(Segment(lines + [l], n))
      && st'.rows == DataRows(Segment(lines + [l], n), isFloat)
  {
    OpenSegmentSnocCycle(lines, l);
    ParamLinesSnoc([], l);
    DataRowsSnoc([], l, isFloat);
    assert [] + [l] == [l];
  }

  /** One appended line moves the loop state exactly as it moves the reference. */
  lemma StepMatches(lines: seq<string>, l: string, isFloat: string -> bool, st: ScanState)
    requires Matches(lines, isFloat, st)
    ensures Step(st, l, isFloat).Err? <==> Classify(l, isFloat).Bad?
    ensures Step(st, l, isFloat).Ok? ==> Matches(lines + [l], isFloat, Step(st, l, isFloat).value)
  {
    if Step(st, l, isFloat).Ok? {
      if Contains(l, CycleMarker) {
        StepMatchesCycle(lines, l, isFloat, st);
      } else {
        StepMatchesPlain(lines, l, isFloat, st);
      }
    }
  }

  // ---------------------------------------------------------------------------
  // Properties

  /** The loop fails exactly when some line is a rejected data line, and otherwise ends
      in the state the segments describe: one assignment per `Cycle:` line (later
      ones overwrite earlier ones of the same name), the open segment still pending. */
  lemma {:induction false} ScanMatches(lines: seq<string>, isFloat: string -> bool)
    ensures Scan(lines, isFloat).Ok? <==> NoBadLine(lines, isFloat)
    ensures Scan(lines, isFloat).Ok? ==> Matches(lines, isFloat, Scan(lines, isFloat).value)
    decreases |lines|
  {
    if |lines| == 0 {
      assert Stored(lines, isFloat) == [];
    } else {
      var front, l := lines[..|lines| - 1], lines[|lines| - 1];
      assert front + [l] == lines;
      ScanMatches(front, isFloat);
      assert NoBadLine(lines, isFloat) <==> NoBadLine(front, isFloat) && !Classify(l, isFloat).Bad? by {
        assert forall i :: 0 <= i < |front| ==> front[i] == lines[i];
      }
      if Scan(front, isFloat).Ok? {
        StepMatches(front, l, isFloat, Scan(front, isFloat).value);
      }
    }
  }

  /** Whatever the names, a segment whose name no later `Cycle:` line repeats is the
      value stored under that name: a repeated name keeps its last segment. In an
      export whose first `Cycle:` line repeats `Cycle: 0, Curve: 0`, that key holds
      segment 1, not the lines before it. */
  lemma LaterCycleWins(lines: seq<string>, isFloat: string -> bool, j: nat)
    requires Scan(lines, isFloat).Ok?
    requires j < |Cycles(lines)|
    requires forall j' :: j < j' < |Cycles(lines)| ==> CycleName(lines, j') != CycleName(lines, j)
    ensures Get(Scan(lines, isFloat).value.entries, CycleName(lines, j)) == Some(SegmentValue(lines, j, isFloat))
  {
    ScanMatches(lines, isFloat);
    var ps := Stored(lines, isFloat);
    var k := CycleName(lines, j);
    LastValueAt(ps, k, j);
    GetPutAll([], ps, k);
  }

  /** The export's own shape: when the first `Cycle:` line names `Cycle: 0, Curve: 0`
      again and no later one does, that key holds the first cycle's segment and the
      lines before the first `Cycle:` line are overwritten. */
  lemma RepeatedFirstName(lines: seq<string>, isFloat: string -> bool)
    requires Scan(lines, isFloat).Ok?
    requires |Cycles(lines)| >= 2 && CycleName(lines, 1) == FirstCycleName
    requires forall j :: 1 < j < |Cycles(lines)| ==> CycleName(lines, j) != FirstCycleName
    ensures Get(Scan(lines, isFloat).value.entries, FirstCycleName) == Some(SegmentValue(lines, 1, isFloat))
  {
    LaterCycleWins(lines, isFloat, 1);
  }

  /** With pairwise distinct cycle names, the dictionary holds exactly one entry per
      `Cycle:` line, in file order, each the segment that line closes. */
  lemma EntriesDistinctNames(lines: seq<string>, isFloat: string -> bool)
    requires Scan(lines, isFloat).Ok?
    requires forall i, j :: 0 <= i < j < |Cycles(lines)| ==> CycleName(lines, i) != CycleName(lines, j)
    ensures Scan(lines, isFloat).value.entries == Stored(lines, isFloat)
    ensures |Scan(lines, isFloat).value.entries| == |Cycles(lines)|
  {
    ScanMatches(lines, isFloat);
    PutAllDistinct(Stored(lines, isFloat));
  }

  /** Once a `Cycle:` line exists, the first key of the dictionary is the initial name
      `Cycle: 0, Curve: 0`. It holds the lines before the first `Cycle:` line only when
      no `Cycle:` line repeats that name; see LaterCycleWins for the value otherwise. */
  lemma FirstEntry(lines: seq<string>, isFloat: string -> bool)
    requires Scan(lines, isFloat).Ok?
    requires |Cycles(lines)| > 0
    ensures var es := Scan(lines, isFloat).value.entries;
      |es| > 0 && es[0].0 == FirstCycleName
    ensures Get(Scan(lines, isFloat).value.entries, FirstCycleName).Some?
    ensures (forall j :: 0 < j < |Cycles(lines)| ==> CycleName(lines, j) != FirstCycleName) ==>
      Get(Scan(lines, isFloat).value.entries, FirstCycleName) == Some(SegmentValue(lines, 0, isFloat))
  {
    if forall j :: 0 < j < |Cycles(lines)| ==> CycleName(lines, j) != FirstCycleName {
      LaterCycleWins(lines, isFloat, 0);
    }
    ScanMatches(lines, isFloat);
    var ps := Stored(lines, isFloat);
    PutAllFirstKey(ps);
    GetPutAll([], ps, FirstCycleName);
    LastValueSome(ps, FirstCycleName);
    assert ps[0].0 == FirstCycleName;
  }

  /** Lines after the last `Cycle:` line change nothing that is stored: the final
      cycle's rows never reach the dictionary, and the label is not updated from them. */
  lemma {:induction false} TailNotStored(lines: seq<string>, tail: seq<string>, isFloat: string -> bool)
    requires forall i :: 0 <= i < |tail| ==> !Contains(tail[i], CycleMarker)
    ensures |Cycles(lines + tail)| == |Cycles(lines)|
    ensures Stored(lines + tail, isFloat) == Stored(lines, isFloat)
    ensures LabelUpTo(lines + tail, |Cycles(lines)|) == LabelUpTo(lines, |Cycles(lines)|)
    decreases |tail|
  {
    if |tail| == 0 {
      assert lines + tail == lines;
    } else {
      var front := tail[..|tail| - 1];
      var l := tail[|tail| - 1];
      assert lines + tail == (lines + front) + [l];
      TailNotStored(lines, front, isFloat);
      OpenSegmentSnocPlain(lines + front, l);
      StoredSnocPlain(lines + front, l, isFloat);
      LabelUpToSnoc(lines + front, l, |Cycles(lines)|);
    }
  }

  /** A trial's dictionary ends with every entry carrying the same `ColumnLabels:` value,
      the label of the last closed segment with more than three parameter lines. */
  lemma TrialLabels(lines: seq<string>, isFloat: string -> bool)
    requires TrialCycles(lines, isFloat).Ok?
    ensures var es := TrialCycles(lines, isFloat).value;
      forall i :: 0 <= i < |es| ==>
        es[i].1.Curve? && Get(es[i].1.params, ColumnLabelsKey) == Some(LabelUpTo(lines, |Cycles(lines)|))
  {
    ScanMatches(lines, isFloat);
    var st := Scan(lines, isFloat).value;
    StoredAreCurves(lines, isFloat);
    BackFillLabels(st.entries, st.coordinates);
  }

  lemma StoredAreCurves(lines: seq<string>, isFloat: string -> bool)
    ensures forall i :: 0 <= i < |PutAll([], Stored(lines, isFloat))| ==> PutAll([], Stored(lines, isFloat))[i].1.Curve?
  {
    var ps := Stored(lines, isFloat);
    assert forall i :: 0 <= i < |ps| ==> ps[i].1.Curve?;
    StoredCurves(ps);
  }

  lemma BackFillLabels(entries: OMap<Value>, coordinates: string)
    requires forall i :: 0 <= i < |entries| ==> entries[i].1.Curve?
    ensures var r := BackFill(entries, coordinates);
      forall i :: 0 <= i < |r| ==> r[i].1.Curve? && Get(r[i].1.params, ColumnLabelsKey) == Some(coordinates)
  {
  }

  lemma {:induction false} StoredCurves(ps: seq<(string, Value)>)
    requires forall i :: 0 <= i < |ps| ==> ps[i].1.Curve?
    ensures forall i :: 0 <= i < |PutAll([], ps)| ==> PutAll([], ps)[i].1.Curve?
    decreases |ps|
  {
    if |ps| > 0 {
      StoredCurves(ps[..|ps| - 1]);
    }
  }
}

=== FILE: lines.dfy ===
/** Operations on the list of file lines: Python slicing, `list.index`, and the one
    primitive every structural level uses, the positions of the lines holding a
    marker substring. */
module Lines {
  import opened Wrappers
  import opened Text

  /** How Python clamps a slice bound against a length `n`. */
  function Bound(i: int, n: nat): (b: nat)
    ensures b <= n
    ensures 0 <= i <= n ==> b == i
  {
    if i < 0 then (if i + n < 0 then 0 else i + n)
    else if i > n then n
    else i
  }

  /** Python's `s[lo:hi]`, which never fails: bounds are clamped and a reversed
      range is empty. */
  function Slice<T>(s: seq<T>, lo: int, hi: int): (r: seq<T>)
    ensures |r| == if Bound(lo, |s|) < Bound(hi, |s|) then Bound(hi, |s|) - Bound(lo, |s|) else 0
    ensures 0 <= lo <= hi <= |s| ==> r == s[lo..hi]
    ensures 0 <= lo && |s| <= hi ==> r == s[if lo <= |s| then lo else |s|..]
    ensures forall j :: 0 <= j < |r| ==> Bound(lo, |s|) + j < Bound(hi, |s|) && r[j] == s[Bound(lo, |s|) + j]
  {
    var a, b := Bound(lo, |s|), Bound(hi, |s|);
    if a < b then s[a..b] else []
  }

  /** Python's `ls.index(x)`: the first position holding `x`, or None where Python
      raises `ValueError`. */
  function FirstIndex(ls: seq<string>, x: string): (r: Option<nat>)
    ensures r.None? <==> x !in ls
    ensures r.Some? ==> r.value < |ls| && ls[r.value] == x && x !in ls[..r.value]
    decreases |ls|
  {
    if |ls| == 0 then None
    else if ls[0] == x then Some(0)
    else
      match FirstIndex(ls[1..], x)
      case None => None
      case Some(i) =>
        assert ls[..i + 1] == [ls[0]] + ls[1..][..i];
        Some(i + 1)
  }

  /** `[i for i, s in enumerate(ls) if marker in s]`: positions of lines containing
      `marker`, in increasing order (that no such line is missed is
      `IndicesOfComplete`). */
  function IndicesOf(ls: seq<string>, marker: string): (r: seq<nat>)
    ensures forall k :: 0 <= k < |r| ==> r[k] < |ls| && Contains(ls[r[k]], marker)
    ensures forall k :: 0 < k < |r| ==> r[k - 1] < r[k]
    decreases |ls|
  {
    if |ls| == 0 then []
    else
      var front := ls[..|ls| - 1];
      var r := IndicesOf(front, marker);
      assert forall j :: 0 <= j < |front| ==> front[j] == ls[j];
      if Contains(ls[|ls| - 1], marker) then r + [|ls| - 1] else r
  }

  /** Every line containing the marker is listed. */
  lemma {:induction false} IndicesOfComplete(ls: seq<string>, marker: string)
    ensures forall j :: 0 <= j < |ls| && Contains(ls[j], marker) ==> j in IndicesOf(ls, marker)
    decreases |ls|
  {
    if |ls| > 0 {
      var front := ls[..|ls| - 1];
      IndicesOfComplete(front, marker);
      assert forall j :: 0 <= j < |front| ==> front[j] == ls[j];
    }
  }

  /** A sequence increasing between neighbours is strictly increasing throughout. */
  lemma {:induction false} IncreasingFromAdjacent(r: seq<nat>)
    requires forall k :: 0 < k < |r| ==> r[k - 1] < r[k]
    ensures forall k, l :: 0 <= k < l < |r| ==> r[k] < r[l]
    decreases |r|
  {
    if |r| > 1 {
      var front := r[..|r| - 1];
      IncreasingFromAdjacent(front);
      forall k, l | 0 <= k < l < |r|
        ensures r[k] < r[l]
      {
        if l < |r| - 1 {
          assert front[k] < front[l];
        } else if k < l - 1 {
          assert front[k] < front[l - 1];
        }
      }
    }
  }

  lemma IndicesOfSnoc(ls: seq<string>, l: string, marker: string)
    ensures IndicesOf(ls + [l], marker)
         == IndicesOf(ls, marker) + if Contains(l, marker) then [|ls|] else []
  {
    assert (ls + [l])[..|ls|] == ls;
  }

  /** A line that is not listed does not hold the marker. */
  lemma NotListed(ls: seq<string>, marker: string, j: int)
    requires 0 <= j < |ls| && j !in IndicesOf(ls, marker)
    ensures !Contains(ls[j], marker)
  {
    IndicesOfComplete(ls, marker);
  }

  /** No line strictly between two consecutive listed positions holds the marker. */
  lemma IndicesOfGap(ls: seq<string>, marker: string, k: int, j: int)
    requires var r := IndicesOf(ls, marker); 0 <= k < |r| && r[k] < j < |ls|
    requires var r := IndicesOf(ls, marker); k + 1 < |r| ==> j < r[k + 1]
    ensures !Contains(ls[j], marker)
  {
    var r := IndicesOf(ls, marker);
    IncreasingFromAdjacent(r);
    forall m | 0 <= m < |r|
      ensures r[m] != j
    {
      if m <= k {
        assert r[m] <= r[k];
      } else {
        assert r[k + 1] <= r[m];
      }
    }
    NotListed(ls, marker, j);
  }

  /** No line before the first listed position holds the marker. */
  lemma IndicesOfBefore(ls: seq<string>, marker: string, j: int)
    requires 0 <= j < |ls|
    requires var r := IndicesOf(ls, marker); |r| > 0 ==> j < r[0]
    ensures !Contains(ls[j], marker)
  {
    var r := IndicesOf(ls, marker);
    IncreasingFromAdjacent(r);
    forall m | 0 <= m < |r|
      ensures r[m] != j
    {
      assert r[0] <= r[m];
    }
    NotListed(ls, marker, j);
  }

  /** The first occurrence in a prefix is the first occurrence in the whole. */
  lemma FirstIndexAppend(a: seq<string>, b: seq<string>, x: string)
    requires x in a
    ensures FirstIndex(a + b, x) == FirstIndex(a, x)
  {
    var i := FirstIndex(a, x).value;
    assert (a + b)[i] == x;
    var j := FirstIndex(a + b, x).value;
    assert j <= i;
    assert a[j] == x;
  }

  /** A slice starting after the `k`-th listed line and ending no later than the next
      one holds no line with the marker. */
  lemma SliceAvoids(ls: seq<string>, marker: string, k: nat, lo: int, hi: int)
    requires k < |IndicesOf(ls, marker)| && IndicesOf(ls, marker)[k] < lo && 0 <= hi
    requires k + 1 < |IndicesOf(ls, marker)| ==> hi <= IndicesOf(ls, marker)[k + 1]
    ensures forall j :: 0 <= j < |Slice(ls, lo, hi)| ==> !Contains(Slice(ls, lo, hi)[j], marker)
  {
    var s := Slice(ls, lo, hi);
    forall j | 0 <= j < |s|
      ensures !Contains(s[j], marker)
    {
      IndicesOfGap(ls, marker, k, Bound(lo, |ls|) + j);
    }
  }
}

=== FILE: load_xy.dfy ===
/** `load_xy`: the stripped lines of an `.xy` export cut into the global header, the
    groups (one per `Group` line), the trials of each group (one per `OrdinateRange:`
    line) and the cycles of each trial. */
module LoadXy {
  import opened Wrappers
  import opened Text
  import opened OrderedMap
  import opened Lines
  import opened Metadata
  import opened Tree
  import opened CycleScan

  /** What `load_xy` returns, depending on its two flags. */
  datatype Output =
    | SettingsOnly(settings: OMap<string>)  // ONLY_SETTINGS
    | NamesOnly(names: seq<string>)         // ONLY_GROUPNAMES
    | Full(doc: Document)

  // ---------------------------------------------------------------------------
  // The global header

  /** `[l.strip() for l in lines]`. */
  function StripLines(raw: seq<string>): (ls: seq<string>)
    ensures |ls| == |raw|
    ensures forall i :: 0 <= i < |raw| ==> ls[i] == Strip(raw[i])
  {
    MapLines(Strip, raw)
  }

  /** Applies `f` to every line. */
  function MapLines(f: string -> string, raw: seq<string>): (ls: seq<string>)
    ensures |ls| == |raw|
    ensures forall i :: 0 <= i < |raw| ==> ls[i] == f(raw[i])
  {
    seq(|raw|, i requires 0 <= i < |raw| => f(raw[i]))
  }

  /** Mapping distributes over concatenation. */
  lemma MapLinesAppend(f: string -> string, a: seq<string>, b: seq<string>)
    ensures MapLines(f, a + b) == MapLines(f, a) + MapLines(f, b)
  {
    var l, r := MapLines(f, a + b), MapLines(f, a) + MapLines(f, b);
    forall i | 0 <= i < |l|
      ensures l[i] == r[i]
    {
      if i < |a| {
        assert (a + b)[i] == a[i];
      } else {
        assert (a + b)[i] == b[i - |a|];
      }
    }
  }

  /** `lines.index(Sentinel)`: the header ends at the first sentinel line. */
  function HeaderEnd(lines: seq<string>): (r: Result<nat, ParseError>)
    ensures r.Err? <==> Sentinel !in lines
    ensures r.Err? ==> r.error == MissingSentinel
    ensures r.Ok? ==> r.value < |lines| && lines[r.value] == Sentinel && Sentinel !in lines[..r.value]
  {
    match FirstIndex(lines, Sentinel)
    case None => Err(MissingSentinel)
    case Some(i) => Ok(i)
  }

  // ---------------------------------------------------------------------------
  // Groups

  /** Positions of the `Group` lines of the body. */
  function GroupLines(body: seq<string>): seq<nat> {
    IndicesOf(body, GroupMarker)
  }

  /** `line[line.rfind('    ') + 1:].strip()`: the text after the last run of four
      spaces (the whole line when there is none), without whitespace at its ends. */
  function GroupName(line: string): (name: string)
    ensures name == [] || (!IsSpace(name[0]) && !IsSpace(name[|name| - 1]))
  {
    var idx := Rfind(line, "    ");
    Strip(Drop(line, idx + 1))
  }

  /** The group names in file order, repetitions kept (the ONLY_GROUPNAMES answer). */
  function GroupNames(body: seq<string>): (names: seq<string>)
    ensures |names| == |GroupLines(body)|
  {
    var gs := GroupLines(body);
    seq(|gs|, k requires 0 <= k < |gs| => GroupName(body[gs[k]]))
  }

  /** Span `k`: from the `k`-th `Group` line up to the next one, the last to the end. */
  function GroupSpans(body: seq<string>): (spans: seq<seq<string>>)
    ensures |spans| == |GroupLines(body)|
    ensures forall k :: 0 <= k < |spans| ==> |spans[k]| > 0
  {
    var gs := GroupLines(body);
    seq(|gs|, k requires 0 <= k < |gs| =>
      if k + 1 < |gs| then body[gs[k]..gs[k + 1]] else body[gs[k]..])
  }

  function Zip<A, B>(a: seq<A>, b: seq<B>): (r: seq<(A, B)>)
    requires |a| == |b|
    ensures |r| == |a|
    ensures forall i :: 0 <= i < |r| ==> r[i].0 == a[i] && r[i].1 == b[i]
  {
    seq(|a|, i requires 0 <= i < |a| => (a[i], b[i]))
  }

  /** `dict(zip(group_names, group_datas))`; every span it keeps is non-empty, so the
      later `pop(-1)` never fails. */
  function RawGroups(body: seq<string>): (r: OMap<seq<string>>)
    ensures forall i :: 0 <= i < |r| ==> |r[i].1| > 0
  {
    var names, spans := GroupNames(body), GroupSpans(body);
    ZipNonEmpty(names, spans);
    PutAll([], Zip(names, spans))
  }

  // ---------------------------------------------------------------------------
  // Trials

  /** The lines a trial's settings are read from, and the lines its cycles are read
      from. */
  datatype TrialSlice = TrialSlice(settings: seq<string>, body: seq<string>)

  /** How a group's lines are cut into trials. The source keeps the position of each
      `OrdinateRange:` line plus 3 (so `[:OR]` runs up to and including the line two
      past it and `[OR+2:]` starts five lines past it). With exactly one such line the whole group above is the
      settings; otherwise trial `i` reads its settings from its `Region:` line on, and
      its data up to the line before the next `Region:` line (or to the end). A missing
      `Region:` line for some trial is the IndexError the source lets escape. */
  function TrialSlices(group: seq<string>): (r: Result<seq<TrialSlice>, ParseError>)
    ensures var n := |IndicesOf(group, OrdinateMarker)|;
      r.Err? <==> n >= 2 && |IndicesOf(group, RegionMarker)| < n
    ensures r.Err? ==> r.error == MissingRegion
    ensures r.Ok? ==> |r.value| == |IndicesOf(group, OrdinateMarker)|
  {
    var os := IndicesOf(group, OrdinateMarker);
    var rs := IndicesOf(group, RegionMarker);
    if |os| == 1 then
      Ok([TrialSlice(Slice(group, 0, os[0] + 3), Slice(group, os[0] + 5, |group|))])
    else if |rs| < |os| then
      Err(MissingRegion)
    else
      Ok(seq(|os|, i requires 0 <= i < |os| => RegionTrial(group, os, rs, i)))
  }

  /** Trial `i` when there are several: settings from its `Region:` line to 3 lines past
      its `OrdinateRange:` line, data from 5 lines past that line to the line before
      the next `Region:` line, or to the end when there is none. */
  function RegionTrial(group: seq<string>, os: seq<nat>, rs: seq<nat>, i: nat): TrialSlice
    requires i < |os| <= |rs|
  {
    TrialSlice(
      Slice(group, rs[i], os[i] + 3),
      if i + 1 < |rs| then Slice(group, os[i] + 5, rs[i + 1] as int - 1) else Slice(group, os[i] + 5, |group|))
  }

  /** `f'Trial {n}'`. */
  function TrialName(n: nat): string {
    "Trial " + Decimal(n)
  }

  /** The cycle dictionaries of the trials, in order; the first failure ends the scan. */
  function ScanTrials(slices: seq<TrialSlice>, isFloat: string -> bool): (r: Result<seq<OMap<Value>>, ParseError>)
    ensures r.Ok? ==> |r.value| == |slices|
    ensures r.Ok? ==> forall i :: 0 <= i < |slices| ==> TrialCycles(slices[i].body, isFloat) == Ok(r.value[i])
    ensures r.Err? <==> exists i :: 0 <= i < |slices| && TrialCycles(slices[i].body, isFloat).Err?
    ensures r.Err? ==> r.error.NotANumber?
    decreases |slices|
  {
    if |slices| == 0 then Ok([])
    else
      var front :- ScanTrials(slices[..|slices| - 1], isFloat);
      var last :- TrialCycles(slices[|slices| - 1].body, isFloat);
      Ok(front + [last])
  }

  /** The settings, as values of a trial dictionary. */
  function Lift(settings: OMap<string>): (r: OMap<Value>)
    ensures Keys(r) == Keys(settings)
  {
    seq(|settings|, i requires 0 <= i < |settings| => (settings[i].0, Scalar(settings[i].1)))
  }

  /** `run_settings[k].update(trial_datas[k])`. */
  function Merge(settings: OMap<string>, cycles: OMap<Value>): OMap<Value> {
    PutAll(Lift(settings), cycles)
  }

  /** `Trial 1`, ..., `Trial n`. */
  function TrialNames(n: nat): (names: seq<string>)
    ensures |names| == n
  {
    seq(n, i requires 0 <= i < n => TrialName(i + 1))
  }

  /** Each trial's settings merged with its cycles. */
  function Trials(slices: seq<TrialSlice>, cycles: seq<OMap<Value>>): (ts: seq<Trial>)
    requires |cycles| == |slices|
    ensures |ts| == |slices|
    ensures forall i :: 0 <= i < |slices| ==> ts[i] == Merge(FilterMetaData(slices[i].settings), cycles[i])
  {
    seq(|slices|, i requires 0 <= i < |slices| => Merge(FilterMetaData(slices[i].settings), cycles[i]))
  }

  /** One group's lines (the trailing line already dropped) to its trials. It fails
      exactly when the group cannot be cut into trials or one trial's scan fails. */
  function BuildGroup(group: seq<string>, isFloat: string -> bool): (r: Result<Group, ParseError>)
    ensures r.Ok? ==> |r.value| == |IndicesOf(group, OrdinateMarker)|
    ensures r.Err? ==> r.error == MissingRegion || r.error.NotANumber?
    ensures r.Err? <==> TrialSlices(group).Err? || ScanTrials(TrialSlices(group).value, isFloat).Err?
  {
    var slices :- TrialSlices(group);
    var cycles :- ScanTrials(slices, isFloat);
    Ok(Zip(TrialNames(|slices|), Trials(slices, cycles)))
  }

  /** `span.pop(-1)`: the span without its trailing line. */
  function DropLast(span: seq<string>): seq<string>
    requires |span| > 0
  {
    span[..|span| - 1]
  }

  /** The loop over `groups.keys()`: each span loses its last line (`pop(-1)`) and is
      replaced by what `build` makes of the rest, under the same key; the first failure
      ends the loop, so the loop fails exactly when one group does. The loader passes
      `GroupBuilder(isFloat)`, which is `BuildGroup`. */
  function BuildGroups(raw: OMap<seq<string>>, build: seq<string> -> Result<Group, ParseError>): (r: Result<OMap<Group>, ParseError>)
    requires forall i :: 0 <= i < |raw| ==> |raw[i].1| > 0
    ensures r.Ok? ==> Keys(r.value) == Keys(raw)
    ensures r.Ok? ==> forall i :: 0 <= i < |raw| ==> build(DropLast(raw[i].1)) == Ok(r.value[i].1)
    ensures r.Err? <==> exists i :: 0 <= i < |raw| && build(DropLast(raw[i].1)).Err?
    ensures r.Err? ==> exists i :: 0 <= i < |raw| && build(DropLast(raw[i].1)) == Err(r.error)
    decreases |raw|
  {
    if |raw| == 0 then Ok([])
    else
      var front :- BuildGroups(raw[..|raw| - 1], build);
      var name, span := raw[|raw| - 1].0, raw[|raw| - 1].1;
      var g :- build(DropLast(span));
      KeysStep(raw, front, g);
      Ok(front + [(name, g)])
  }

  function GroupBuilder(isFloat: string -> bool): seq<string> -> Result<Group, ParseError> {
    group => BuildGroup(group, isFloat)
  }

  /** Appending the entry for the last key keeps the keys in step. */
  lemma KeysStep<V, W>(m: OMap<V>, front: OMap<W>, w: W)
    requires |m| > 0 && Keys(front) == Keys(m[..|m| - 1])
    ensures Keys(front + [(m[|m| - 1].0, w)]) == Keys(m)
  {
    KeysSnoc(front, m[|m| - 1].0, w);
    KeysSnoc(m[..|m| - 1], m[|m| - 1].0, m[|m| - 1].1);
    assert m[..|m| - 1] + [(m[|m| - 1].0, m[|m| - 1].1)] == m;
  }

  /** The part of the stripped lines after the sentinel and the line following it. */
  function Body(lines: seq<string>): seq<string>
    requires HeaderEnd(lines).Ok?
  {
    Slice(lines, HeaderEnd(lines).value + 2, |lines|)
  }

  /** The full answer: the global settings and the groups built from the body. */
  function Assemble(settings: OMap<string>, body: seq<string>, isFloat: string -> bool): (r: Result<Output, ParseError>)
    ensures r.Err? ==> !r.error.MissingSentinel?
    ensures r.Ok? ==> r.value.Full? && r.value.doc.settings == settings
    ensures r.Ok? ==> Keys(r.value.doc.groups) == Keys(RawGroups(body))
    ensures r.Ok? ==> forall i :: 0 <= i < |RawGroups(body)| ==>
      BuildGroup(DropLast(RawGroups(body)[i].1), isFloat) == Ok(r.value.doc.groups[i].1)
    ensures r.Err? <==> exists i :: 0 <= i < |RawGroups(body)| && BuildGroup(DropLast(RawGroups(body)[i].1), isFloat).Err?
  {
    var groups :- BuildGroups(RawGroups(body), GroupBuilder(isFloat));
    Ok(Full(Document(settings, groups)))
  }

  /** `load_xy(lines, ONLY_SETTINGS, ONLY_GROUPNAMES)` on the file's lines. */
  function LoadXy(raw: seq<string>, onlySettings: bool, onlyGroupNames: bool, isFloat: string -> bool): (r: Result<Output, ParseError>)
    ensures r == Err(MissingSentinel) <==> Sentinel !in StripLines(raw)
    ensures onlySettings ==> (r.Ok? <==> Sentinel in StripLines(raw)) && (r.Ok? ==> r.value.SettingsOnly?)
    ensures !onlySettings && onlyGroupNames ==> (r.Ok? <==> Sentinel in StripLines(raw)) && (r.Ok? ==> r.value.NamesOnly?)
  {
    var lines := StripLines(raw);
    var i :- HeaderEnd(lines);
    var settings := FilterMetaData(lines[..i + 1]);
    if onlySettings then Ok(SettingsOnly(settings))
    else if onlyGroupNames then Ok(NamesOnly(GroupNames(Body(lines))))
    else Assemble(settings, Body(lines), isFloat)
  }

  lemma ZipNonEmpty(names: seq<string>, spans: seq<seq<string>>)
    requires |names| == |spans|
    requires forall k :: 0 <= k < |spans| ==> |spans[k]| > 0
    ensures forall i :: 0 <= i < |PutAll([], Zip(names, spans))| ==> |PutAll([], Zip(names, spans))[i].1| > 0
  {
    var ps := Zip(names, spans);
    PutAllFrom(ps);
    var r := PutAll([], ps);
    forall i | 0 <= i < |r|
      ensures |r[i].1| > 0
    {
      assert r[i] in ps;
    }
  }

  // ---------------------------------------------------------------------------
  // Properties: the header

  lemma StripLinesAppend(a: seq<string>, b: seq<string>)
    ensures StripLines(a + b) == StripLines(a) + StripLines(b)
  {
    MapLinesAppend(Strip, a, b);
  }

  /** With ONLY_SETTINGS the answer depends only on the lines up to the first sentinel:
      whatever follows it is never read. */
  lemma SettingsIgnoreRest(head: seq<string>, tail: seq<string>, onlyGroupNames: bool, isFloat: string -> bool)
    requires Sentinel in StripLines(head)
    ensures LoadXy(head + tail, true, onlyGroupNames, isFloat) == LoadXy(head, true, onlyGroupNames, isFloat)
  {
    HeaderIgnoresRest(head, tail);
    SettingsAnswer(head, onlyGroupNames, isFloat);
    SettingsAnswer(head + tail, onlyGroupNames, isFloat);
  }

  lemma HeaderIgnoresRest(head: seq<string>, tail: seq<string>)
    requires Sentinel in StripLines(head)
    ensures HeaderEnd(StripLines(head)).Ok?
    ensures HeaderEnd(StripLines(head + tail)) == HeaderEnd(StripLines(head))
    ensures var i := HeaderEnd(StripLines(head)).value;
      StripLines(head + tail)[..i + 1] == StripLines(head)[..i + 1]
  {
    StripLinesAppend(head, tail);
    HeaderAppend(StripLines(head), StripLines(tail));
  }

  lemma HeaderAppend(a: seq<string>, b: seq<string>)
    requires Sentinel in a
    ensures HeaderEnd(a).Ok?
    ensures HeaderEnd(a + b) == HeaderEnd(a)
    ensures var i := HeaderEnd(a).value; (a + b)[..i + 1] == a[..i + 1]
  {
    FirstIndexAppend(a, b, Sentinel);
    var i := FirstIndex(a, Sentinel).value;
    assert (a + b)[..i + 1] == a[..i + 1];
  }

  lemma SettingsAnswer(raw: seq<string>, onlyGroupNames: bool, isFloat: string -> bool)
    requires HeaderEnd(StripLines(raw)).Ok?
    ensures LoadXy(raw, true, onlyGroupNames, isFloat)
      == Ok(SettingsOnly(FilterMetaData(StripLines(raw)[..HeaderEnd(StripLines(raw)).value + 1])))
  {
  }

  // ---------------------------------------------------------------------------
  // Properties: groups

  /** A `Group` line whose last column follows a run of four spaces is named by that
      column, inner spaces included (as in `stig M1`), when the column has no
      whitespace at either end and no run of four spaces of its own. */
  lemma GroupNameLastColumn(p: string, w: string)
    requires |w| > 0 && !IsSpace(w[0]) && !IsSpace(w[|w| - 1])
    requires forall j :: !OccursAt(w, "    ", j)
    ensures GroupName(p + "    " + w) == w
  {
    var line := p + "    " + w;
    LastRunAt(p, w);
    assert Drop(line, |p| + 1) == "   " + w;
    StripBlankThenWord("   ", w);
  }

  /** The last run of four spaces in `p + "    " + w` is the one before `w`. */
  lemma LastRunAt(p: string, w: string)
    requires |w| > 0 && !IsSpace(w[0])
    requires forall j :: !OccursAt(w, "    ", j)
    ensures Rfind(p + "    " + w, "    ") == |p|
  {
    var line := p + "    " + w;
    assert OccursAt(line, "    ", |p|) by {
      assert line[|p|..|p| + 4] == "    ";
    }
    forall j | |p| < j
      ensures !OccursAt(line, "    ", j)
    {
      if j + 4 <= |line| {
        if j >= |p| + 4 {
          assert line[j..j + 4] == w[j - |p| - 4..j - |p|];
          assert !OccursAt(w, "    ", j - |p| - 4);
        } else {
          assert line[|p| + 4] == w[0];
          assert line[j..j + 4][|p| + 4 - j] == w[0];
        }
      }
    }
  }

  function Flatten<T>(ss: seq<seq<T>>): seq<T>
    decreases |ss|
  {
    if |ss| == 0 then [] else ss[0] + Flatten(ss[1..])
  }

  lemma {:induction false} SpansFrom(body: seq<string>, k: nat)
    requires k < |GroupLines(body)|
    ensures Flatten(GroupSpans(body)[k..]) == body[GroupLines(body)[k]..]
    decreases |GroupLines(body)| - k
  {
    var gs, spans := GroupLines(body), GroupSpans(body);
    assert spans[k..][1..] == spans[k + 1..];
    if k + 1 < |gs| {
      SpansFrom(body, k + 1);
      assert body[gs[k]..gs[k + 1]] + body[gs[k + 1]..] == body[gs[k]..];
    } else {
      assert spans[k + 1..] == [];
    }
  }

  /** The spans, laid end to end, are the body from its first `Group` line on: no line
      is lost or repeated. */
  lemma SpansPartitionBody(body: seq<string>)
    requires |GroupLines(body)| > 0
    ensures Flatten(GroupSpans(body)) == body[GroupLines(body)[0]..]
  {
    SpansFrom(body, 0);
    assert GroupSpans(body)[0..] == GroupSpans(body);
  }

  /** Each span starts at its `Group` line and holds no other. */
  lemma SpanHoldsOneGroupLine(body: seq<string>, k: nat)
    requires k < |GroupLines(body)|
    ensures Contains(GroupSpans(body)[k][0], GroupMarker)
    ensures forall j :: 0 < j < |GroupSpans(body)[k]| ==> !Contains(GroupSpans(body)[k][j], GroupMarker)
  {
    var gs, span := GroupLines(body), GroupSpans(body)[k];
    forall j | 0 < j < |span|
      ensures !Contains(span[j], GroupMarker)
    {
      assert span[j] == body[gs[k] + j];
      IndicesOfGap(body, GroupMarker, k, gs[k] + j);
    }
  }

  lemma ZipKeys(names: seq<string>, spans: seq<seq<string>>, name: string)
    requires |names| == |spans|
    ensures HasKey(PutAll([], Zip(names, spans)), name) <==> name in names
  {
    var ps := Zip(names, spans);
    GetPutAll([], ps, name);
    LastValueSome(ps, name);
    if name in names {
      var j :| 0 <= j < |names| && names[j] == name;
      assert ps[j].0 == name;
    }
  }

  /** The group dictionary has exactly the group names as keys. */
  lemma RawGroupsKeys(body: seq<string>, name: string)
    ensures HasKey(RawGroups(body), name) <==> name in GroupNames(body)
  {
    ZipKeys(GroupNames(body), GroupSpans(body), name);
  }

  /** A name used by several `Group` lines keeps the span of the last of them (and the
      position of the first, see `PutAll`). */
  lemma LaterSpanWins(body: seq<string>, j: nat)
    requires j < |GroupNames(body)|
    requires forall j' :: j < j' < |GroupNames(body)| ==> GroupNames(body)[j'] != GroupNames(body)[j]
    ensures Get(RawGroups(body), GroupNames(body)[j]) == Some(GroupSpans(body)[j])
  {
    var names, spans := GroupNames(body), GroupSpans(body);
    var ps := Zip(names, spans);
    LastValueAt(ps, names[j], j);
    GetPutAll([], ps, names[j]);
  }

  /** The group stored under a name is the one built from the span of the last
      `Group` line with that name, minus its trailing line. */
  lemma GroupFromSpan(settings: OMap<string>, body: seq<string>, isFloat: string -> bool, j: nat)
    requires Assemble(settings, body, isFloat).Ok?
    requires j < |GroupNames(body)|
    requires forall j' :: j < j' < |GroupNames(body)| ==> GroupNames(body)[j'] != GroupNames(body)[j]
    ensures |GroupSpans(body)[j]| > 0
    ensures Get(Assemble(settings, body, isFloat).value.doc.groups, GroupNames(body)[j]).Some?
    ensures BuildGroup(DropLast(GroupSpans(body)[j]), isFloat)
         == Ok(Get(Assemble(settings, body, isFloat).value.doc.groups, GroupNames(body)[j]).value)
  {
    var raw := RawGroups(body);
    var groups := Assemble(settings, body, isFloat).value.doc.groups;
    var name := GroupNames(body)[j];
    LaterSpanWins(body, j);
    SameKeysIndex(raw, groups, name);
  }

  /** Two dictionaries with the same keys find a key at the same position. */
  lemma SameKeysIndex<V, W>(m: OMap<V>, n: OMap<W>, k: string)
    requires Keys(m) == Keys(n)
    ensures IndexOf(m, k) == IndexOf(n, k)
  {
    assert forall i :: 0 <= i < |m| ==> m[i].0 == Keys(m)[i] == Keys(n)[i] == n[i].0;
    IndexOfSameKeys(m, n, k);
  }

  lemma HasKeyKeys<V, W>(m: OMap<V>, n: OMap<W>, k: string)
    requires Keys(m) == Keys(n)
    ensures HasKey(m, k) <==> HasKey(n, k)
  {
    if HasKey(m, k) {
      var i :| 0 <= i < |m| && m[i].0 == k;
      assert Keys(n)[i] == k;
    }
    if HasKey(n, k) {
      var i :| 0 <= i < |n| && n[i].0 == k;
      assert Keys(m)[i] == k;
    }
  }

  lemma NamesOnlyAnswer(raw: seq<string>, isFloat: string -> bool, names: seq<string>)
    requires LoadXy(raw, false, true, isFloat) == Ok(NamesOnly(names))
    ensures HeaderEnd(StripLines(raw)).Ok? && names == GroupNames(Body(StripLines(raw)))
  {
  }

  /** Past the header, the full answer is the one assembled from the header settings
      and the body. */
  lemma FullIs(raw: seq<string>, isFloat: string -> bool)
    requires HeaderEnd(StripLines(raw)).Ok?
    ensures LoadXy(raw, false, false, isFloat)
         == Assemble(FilterMetaData(StripLines(raw)[..HeaderEnd(StripLines(raw)).value + 1]), Body(StripLines(raw)), isFloat)
  {
  }

  lemma FullAnswer(raw: seq<string>, isFloat: string -> bool, doc: Document)
    requires LoadXy(raw, false, false, isFloat) == Ok(Full(doc))
    ensures HeaderEnd(StripLines(raw)).Ok?
    ensures Keys(doc.groups) == Keys(RawGroups(Body(StripLines(raw))))
  {
  }

  /** Past the header, the full load fails exactly when building one group does. */
  lemma FullFails(raw: seq<string>, isFloat: string -> bool)
    requires HeaderEnd(StripLines(raw)).Ok?
    ensures var spans := RawGroups(Body(StripLines(raw)));
      LoadXy(raw, false, false, isFloat).Err? <==>
        exists i :: 0 <= i < |spans| && BuildGroup(DropLast(spans[i].1), isFloat).Err?
  {
    FullIs(raw, isFloat);
  }

  /** In the document the loader returns, a group name that no later `Group` line
      repeats holds the trials built from its own span, minus the span's trailing
      line. */
  lemma LoadedGroup(raw: seq<string>, isFloat: string -> bool, doc: Document, j: nat)
    requires LoadXy(raw, false, false, isFloat) == Ok(Full(doc))
    requires HeaderEnd(StripLines(raw)).Ok?
    requires var names := GroupNames(Body(StripLines(raw)));
      j < |names| && forall j' :: j < j' < |names| ==> names[j'] != names[j]
    ensures var body := Body(StripLines(raw));
      && |GroupSpans(body)[j]| > 0
      && Get(doc.groups, GroupNames(body)[j]).Some?
      && BuildGroup(DropLast(GroupSpans(body)[j]), isFloat) == Ok(Get(doc.groups, GroupNames(body)[j]).value)
  {
    FullIs(raw, isFloat);
    var lines := StripLines(raw);
    GroupFromSpan(FilterMetaData(lines[..HeaderEnd(lines).value + 1]), Body(lines), isFloat, j);
  }

  /** The ONLY_GROUPNAMES answer and the full answer agree: a name is listed exactly
      when the groups dictionary has it as a key. */
  lemma NamesAgreeWithGroups(raw: seq<string>, isFloat: string -> bool, names: seq<string>, doc: Document, name: string)
    requires LoadXy(raw, false, true, isFloat) == Ok(NamesOnly(names))
    requires LoadXy(raw, false, false, isFloat) == Ok(Full(doc))
    ensures name in names <==> HasKey(doc.groups, name)
  {
    NamesOnlyAnswer(raw, isFloat, names);
    FullAnswer(raw, isFloat, doc);
    var body := Body(StripLines(raw));
    RawGroupsKeys(body, name);
    HasKeyKeys(doc.groups, RawGroups(body), name);
  }

  // ---------------------------------------------------------------------------
  // Properties: trials

  /** With a single `OrdinateRange:` line there is one trial, and its data lines hold
      no `OrdinateRange:` line. */
  lemma SingleTrialBody(group: seq<string>)
    requires |IndicesOf(group, OrdinateMarker)| == 1
    ensures TrialSlices(group).Ok? && |TrialSlices(group).value| == 1
    ensures forall j :: 0 <= j < |TrialSlices(group).value[0].body| ==>
      !Contains(TrialSlices(group).value[0].body[j], OrdinateMarker)
  {
    SingleTrialSlice(group);
    var o := IndicesOf(group, OrdinateMarker)[0];
    SingleSliceAvoids(group, o + 5, TrialSlices(group).value[0].body);
  }

  lemma SingleSliceAvoids(group: seq<string>, lo: nat, body: seq<string>)
    requires |IndicesOf(group, OrdinateMarker)| == 1 && lo == IndicesOf(group, OrdinateMarker)[0] + 5
    requires body == Slice(group, lo, |group|)
    ensures forall j :: 0 <= j < |body| ==> !Contains(body[j], OrdinateMarker)
  {
    SliceAvoids(group, OrdinateMarker, 0, lo, |group|);
  }

  lemma SingleTrialSlice(group: seq<string>)
    requires |IndicesOf(group, OrdinateMarker)| == 1
    ensures TrialSlices(group).Ok? && |TrialSlices(group).value| == 1
    ensures TrialSlices(group).value[0].body == Slice(group, IndicesOf(group, OrdinateMarker)[0] + 5, |group|)
  {
  }

  /** With several trials, when each `Region:` line comes before its trial's
      `OrdinateRange:` line (as the export writes them), a trial's data lines stop
      before the next trial's `Region:` line: none of them is a `Region:` line. */
  lemma TrialBodyBeforeNextRegion(group: seq<string>, i: nat)
    requires |IndicesOf(group, OrdinateMarker)| >= 2
    requires |IndicesOf(group, RegionMarker)| >= |IndicesOf(group, OrdinateMarker)|
    requires i < |IndicesOf(group, OrdinateMarker)|
    requires IndicesOf(group, RegionMarker)[i] < IndicesOf(group, OrdinateMarker)[i]
    ensures TrialSlices(group).Ok? && i < |TrialSlices(group).value|
    ensures forall j :: 0 <= j < |TrialSlices(group).value[i].body| ==>
      !Contains(TrialSlices(group).value[i].body[j], RegionMarker)
  {
    MultiTrialSlice(group, i);
    RegionBodyAvoids(group, IndicesOf(group, OrdinateMarker), IndicesOf(group, RegionMarker), i);
  }

  lemma RegionBodyAvoids(group: seq<string>, os: seq<nat>, rs: seq<nat>, i: nat)
    requires rs == IndicesOf(group, RegionMarker)
    requires i < |os| <= |rs| && rs[i] < os[i]
    ensures forall j :: 0 <= j < |RegionTrial(group, os, rs, i).body| ==>
      !Contains(RegionTrial(group, os, rs, i).body[j], RegionMarker)
  {
    var hi := if i + 1 < |rs| then rs[i + 1] as int - 1 else |group|;
    assert hi >= 0 by {
      if i + 1 < |rs| {
        assert rs[i] < rs[i + 1];
      }
    }
    assert RegionTrial(group, os, rs, i).body == Slice(group, os[i] + 5, hi);
    SliceAvoids(group, RegionMarker, i, os[i] + 5, hi);
  }

  lemma MultiTrialSlice(group: seq<string>, i: nat)
    requires |IndicesOf(group, OrdinateMarker)| >= 2
    requires |IndicesOf(group, RegionMarker)| >= |IndicesOf(group, OrdinateMarker)|
    requires i < |IndicesOf(group, OrdinateMarker)|
    ensures TrialSlices(group).Ok? && i < |TrialSlices(group).value|
    ensures TrialSlices(group).value[i] == RegionTrial(group, IndicesOf(group, OrdinateMarker), IndicesOf(group, RegionMarker), i)
  {
  }

  /** The dictionary of a setting string, as a trial value. */
  function AsValue(o: Option<string>): Option<Value> {
    match o
    case Some(s) => Some(Scalar(s))
    case None => None
  }

  lemma GetLift(settings: OMap<string>, k: string)
    ensures Get(Lift(settings), k) == AsValue(Get(settings, k))
  {
    IndexOfSameKeys(Lift(settings), settings, k);
  }

  /** A trial dictionary: a cycle entry wins over a setting of the same name, every
      other setting is kept as a string, and no other key is present. */
  lemma MergeGet(settings: OMap<string>, cycles: OMap<Value>, k: string)
    requires Distinct(cycles)
    ensures Get(Merge(settings, cycles), k) == if HasKey(cycles, k) then Get(cycles, k) else AsValue(Get(settings, k))
  {
    GetPutAll(Lift(settings), cycles, k);
    LastValueDistinct(cycles, k);
    GetLift(settings, k);
  }

  lemma TrialNameInjective(m: nat, n: nat)
    requires TrialName(m) == TrialName(n)
    ensures m == n
  {
    assert TrialName(m)[6..] == Decimal(m);
    assert TrialName(n)[6..] == Decimal(n);
    DecimalInjective(m, n);
  }

  /** A group holds one trial per `OrdinateRange:` line, named `Trial 1`, `Trial 2`, ...
      in order, so no trial overwrites another. */
  lemma GroupTrialNames(group: seq<string>, isFloat: string -> bool, g: Group)
    requires BuildGroup(group, isFloat) == Ok(g)
    ensures |g| == |IndicesOf(group, OrdinateMarker)|
    ensures forall i :: 0 <= i < |g| ==> g[i].0 == TrialName(i + 1)
    ensures Distinct(g)
  {
    var slices := TrialSlices(group).value;
    var cycles := ScanTrials(slices, isFloat).value;
    assert g == Zip(TrialNames(|slices|), Trials(slices, cycles));
    NamedTrials(Trials(slices, cycles));
  }

  lemma NamedTrials(ts: seq<Trial>)
    ensures var g := Zip(TrialNames(|ts|), ts);
      && (forall i :: 0 <= i < |g| ==> g[i].0 == TrialName(i + 1))
      && Distinct(g)
  {
    var g := Zip(TrialNames(|ts|), ts);
    assert forall i :: 0 <= i < |g| ==> g[i].0 == TrialName(i + 1);
    NumberedDistinct(g);
  }

  lemma NumberedDistinct(g: Group)
    requires forall i :: 0 <= i < |g| ==> g[i].0 == TrialName(i + 1)
    ensures Distinct(g)
  {
    forall a, b | 0 <= a < b < |g|
      ensures g[a].0 != g[b].0
    {
      if g[a].0 == g[b].0 {
        TrialNameInjective(a + 1, b + 1);
      }
    }
  }

  /** Trial `i` of a group is its own settings merged with the cycles of its own data
      lines, the cycles winning on a shared key. */
  lemma GroupTrialContents(group: seq<string>, isFloat: string -> bool, g: Group, slices: seq<TrialSlice>, i: nat, cycles: OMap<Value>, k: string)
    requires BuildGroup(group, isFloat) == Ok(g)
    requires TrialSlices(group) == Ok(slices)
    requires i < |slices|
    requires TrialCycles(slices[i].body, isFloat) == Ok(cycles)
    ensures i < |g| && g[i].1 == Merge(FilterMetaData(slices[i].settings), cycles)
    ensures Get(g[i].1, k) == if HasKey(cycles, k) then Get(cycles, k) else AsValue(Get(FilterMetaData(slices[i].settings), k))
  {
    GroupTrial(group, isFloat, g, slices, i, cycles);
    MergeGet(FilterMetaData(slices[i].settings), cycles, k);
  }

  lemma GroupTrial(group: seq<string>, isFloat: string -> bool, g: Group, slices: seq<TrialSlice>, i: nat, cycles: OMap<Value>)
    requires BuildGroup(group, isFloat) == Ok(g)
    requires TrialSlices(group) == Ok(slices)
    requires i < |slices|
    requires TrialCycles(slices[i].body, isFloat) == Ok(cycles)
    ensures i < |g| && g[i].1 == Merge(FilterMetaData(slices[i].settings), cycles)
  {
    var cs := ScanTrials(slices, isFloat).value;
    assert cs[i] == cycles;
    assert g == Zip(TrialNames(|slices|), Trials(slices, cs));
  }
}

=== FILE: metadata.dfy ===
/** The key/value tokenizer applied at every level of the file (global settings, trial
    settings, cycle parameters): each line becomes at most one dictionary entry. */
module Metadata {
  import opened Wrappers
  import opened Text
  import opened OrderedMap

  /** The pieces of a split that are not whitespace-only (`re.fullmatch(r'\s*', p)`
      fails for them), in order. */
  function NonBlank(ps: seq<string>): (r: seq<string>)
    ensures forall i :: 0 <= i < |r| ==> !Blank(r[i])
    ensures forall p :: p in r ==> p in ps
    decreases |ps|
  {
    if |ps| == 0 then []
    else if Blank(ps[|ps| - 1]) then NonBlank(ps[..|ps| - 1])
    else NonBlank(ps[..|ps| - 1]) + [ps[|ps| - 1]]
  }

  /** The fields made from the pieces of a split: whitespace-only pieces dropped, then
      one leading `#` stripped from each (which may leave an empty field). */
  function FieldsOf(parts: seq<string>): seq<string> {
    var kept := NonBlank(parts);
    seq(|kept|, i requires 0 <= i < |kept| => StripHash(kept[i]))
  }

  /** The fields of a line: its pieces when split on runs of paired whitespace. */
  function Fields(line: string): seq<string> {
    FieldsOf(RegexSplit(line))
  }

  /** The tokens made from fields: when more than two fields survive, the first is
      dropped; then all whitespace is squeezed out of each. */
  function TokensOf(fs: seq<string>): (ts: seq<string>)
    ensures forall i :: 0 <= i < |ts| ==> NoSpace(ts[i])
  {
    var kept := if |fs| > 2 then fs[1..] else fs;
    seq(|kept|, i requires 0 <= i < |kept| => RemoveSpaces(kept[i]))
  }

  function Tokens(line: string): (ts: seq<string>)
    ensures forall i :: 0 <= i < |ts| ==> NoSpace(ts[i])
  {
    TokensOf(Fields(line))
  }

  /** The entry made from tokens: the first two, or nothing when fewer than two
      survive (the `IndexError` the source catches). */
  function EntryOf(ts: seq<string>): Option<(string, string)> {
    if |ts| >= 2 then Some((ts[0], ts[1])) else None
  }

  /** The entry one line contributes; its key and value hold no whitespace. */
  function ParseLine(line: string): (e: Option<(string, string)>)
    ensures e.Some? ==> NoSpace(e.value.0) && NoSpace(e.value.1)
  {
    EntryOf(Tokens(line))
  }

  /** `filter_meta_data`: the lines' entries assigned in order into a fresh dictionary.
      It never fails, and no key or value it stores contains whitespace. */
  function FilterMetaData(lines: seq<string>): (m: OMap<string>)
    ensures Distinct(m)
    ensures forall i :: 0 <= i < |m| ==> NoSpace(m[i].0) && NoSpace(m[i].1)
    decreases |lines|
  {
    if |lines| == 0 then []
    else
      var m := FilterMetaData(lines[..|lines| - 1]);
      match ParseLine(lines[|lines| - 1])
      case Some((k, v)) => Put(m, k, v)
      case None => m
  }

  // ---------------------------------------------------------------------------
  // Properties

  /** Reference: the value given to `k` by the last line whose entry has key `k`. */
  function LastLineValue(lines: seq<string>, k: string): Option<string>
    decreases |lines|
  {
    if |lines| == 0 then None
    else match ParseLine(lines[|lines| - 1])
      case Some((k', v)) => if k' == k then Some(v) else LastLineValue(lines[..|lines| - 1], k)
      case None => LastLineValue(lines[..|lines| - 1], k)
  }

  /** For a repeated key the last line wins; a key no line yields is absent. */
  lemma {:induction false} FilterMetaDataLastWins(lines: seq<string>, k: string)
    ensures Get(FilterMetaData(lines), k) == LastLineValue(lines, k)
    decreases |lines|
  {
    if |lines| > 0 {
      FilterMetaDataLastWins(lines[..|lines| - 1], k);
    }
  }

  /** A line with fewer than two surviving tokens contributes nothing, wherever it
      stands. */
  lemma {:induction false} ShortLineIgnored(a: seq<string>, line: string, b: seq<string>)
    requires ParseLine(line).None?
    ensures FilterMetaData(a + [line] + b) == FilterMetaData(a + b)
    decreases |b|
  {
    if |b| == 0 {
      assert (a + [line] + b)[..|a|] == a;
      assert a + [line] + b == a + [line];
      assert a + b == a;
    } else {
      var b' := b[..|b| - 1];
      assert (a + [line] + b)[..|a + [line] + b| - 1] == a + [line] + b';
      assert (a + b)[..|a + b| - 1] == a + b';
      ShortLineIgnored(a, line, b');
    }
  }

  /** A single word yields no entry: one field at most survives. */
  lemma SingleWordIgnored(w: string)
    requires NoSpace(w)
    ensures ParseLine(w) == None
  {
    RegexSplitSingle(w);
    assert NonBlank([w]) == if Blank(w) then [] else [w] by {
      NonBlankSnoc([], w);
      assert [] + [w] == [w];
    }
  }

  /** A whitespace-only line (the empty line included) yields no entry: every piece
      of its split is whitespace only, so no field survives. */
  lemma BlankLineIgnored(line: string)
    requires Blank(line)
    ensures ParseLine(line) == None
  {
    var ps := RegexSplit(line);
    RegexSplitBlank(line);
    NonBlankAllBlank(ps);
  }

  /** The split of a whitespace-only text has only whitespace-only pieces. */
  lemma {:induction false} RegexSplitBlank(s: string)
    requires Blank(s)
    ensures forall i :: 0 <= i < |RegexSplit(s)| ==> Blank(RegexSplit(s)[i])
    decreases |s|
  {
    var p := FirstPair(s, 0);
    if p < |s| {
      assert PairAt(s, 0);
      var m := PairMatch(s, p);
      var rest := s[p + m..];
      assert Blank(rest) by {
        forall i | 0 <= i < |rest|
          ensures IsSpace(rest[i])
        {
          assert rest[i] == s[p + m + i];
        }
      }
      RegexSplitBlank(rest);
      var ps := [s[..p], s[p + m - 2..p + m]] + RegexSplit(rest);
      forall i | 0 <= i < |ps|
        ensures Blank(ps[i])
      {
        if i >= 2 {
          assert ps[i] == RegexSplit(rest)[i - 2];
        }
      }
    }
  }

  lemma {:induction false} NonBlankAllBlank(ps: seq<string>)
    requires forall i :: 0 <= i < |ps| ==> Blank(ps[i])
    ensures NonBlank(ps) == []
    decreases |ps|
  {
    if |ps| > 0 {
      NonBlankAllBlank(ps[..|ps| - 1]);
    }
  }

  // ---------------------------------------------------------------------------
  // Splitting well-separated words

  lemma NonBlankSnoc(ps: seq<string>, p: string)
    ensures NonBlank(ps + [p]) == if Blank(p) then NonBlank(ps) else NonBlank(ps) + [p]
  {
    assert (ps + [p])[..|ps|] == ps;
  }

  lemma FirstPairIs(s: string, p: nat)
    requires p == |s| || PairAt(s, p)
    requires forall j :: 0 <= j < p ==> !PairAt(s, j)
    ensures FirstPair(s, 0) == p
  {
    var q := FirstPair(s, 0);
    assert q < |s| ==> PairAt(s, q);
  }

  /** An even whitespace run of length `n` not followed by whitespace is matched
      whole. */
  lemma {:induction false} MatchLengthIs(s: string, i: nat, n: nat)
    requires i + n <= |s| && n % 2 == 0
    requires forall j :: i <= j < i + n ==> IsSpace(s[j])
    requires i + n == |s| || !IsSpace(s[i + n])
    ensures MatchLength(s, i) == n
    decreases n
  {
    if n > 0 {
      MatchLengthIs(s, i + 2, n - 2);
    }
  }

  lemma RegexSplitAt(s: string, p: nat, n: nat)
    requires p < |s| && FirstPair(s, 0) == p
    requires MatchLength(s, p) == n
    ensures RegexSplit(s) == [s[..p], s[p + n - 2..p + n]] + RegexSplit(s[p + n..])
  {
    var m := PairMatch(s, p);
  }

  lemma RegexSplitSingle(w: string)
    requires NoSpace(w)
    ensures RegexSplit(w) == [w]
  {
    FirstPairIs(w, |w|);
  }

  lemma WordPairFacts(w: string, sp: string, rest: string)
    requires NoSpace(w) && Blank(sp) && |sp| >= 2 && |sp| % 2 == 0
    requires rest == [] || !IsSpace(rest[0])
    ensures FirstPair(w + sp + rest, 0) == |w|
    ensures MatchLength(w + sp + rest, |w|) == |sp|
  {
    var s := w + sp + rest;
    assert forall j :: 0 <= j < |w| ==> s[j] == w[j];
    assert forall j :: 0 <= j < |sp| ==> s[|w| + j] == sp[j];
    assert |w| + |sp| < |s| ==> s[|w| + |sp|] == rest[0];
    FirstPairIs(s, |w|);
    MatchLengthIs(s, |w|, |sp|);
  }

  lemma ConcatSlices(w: string, sp: string, rest: string)
    requires |sp| >= 2
    ensures (w + sp + rest)[..|w|] == w
    ensures (w + sp + rest)[|w| + |sp|..] == rest
    ensures (w + sp + rest)[|w| + |sp| - 2..|w| + |sp|] == sp[|sp| - 2..]
  {
  }

  /** A space-free word followed by an even whitespace run and a remainder that does
      not start with whitespace splits off the word and the run's last two characters. */
  lemma RegexSplitWord(w: string, sp: string, rest: string)
    requires NoSpace(w) && Blank(sp) && |sp| >= 2 && |sp| % 2 == 0
    requires rest == [] || !IsSpace(rest[0])
    ensures RegexSplit(w + sp + rest) == [w, sp[|sp| - 2..]] + RegexSplit(rest)
  {
    WordPairFacts(w, sp, rest);
    RegexSplitAfterWord(w, sp, rest);
  }

  lemma RegexSplitAfterWord(w: string, sp: string, rest: string)
    requires |sp| >= 2 && |sp| % 2 == 0
    requires FirstPair(w + sp + rest, 0) == |w|
    requires MatchLength(w + sp + rest, |w|) == |sp|
    ensures RegexSplit(w + sp + rest) == [w, sp[|sp| - 2..]] + RegexSplit(rest)
  {
    RegexSplitAt(w + sp + rest, |w|, |sp|);
    ConcatSlices(w, sp, rest);
  }

  /** A word that the tokenizer keeps unchanged. */
  predicate PlainWord(w: string) {
    |w| > 0 && NoSpace(w) && w[0] != '#'
  }

  /** The line `k + "  " + v` yields exactly the entry `k` ↦ `v`. */
  lemma ParseRendered(k: string, v: string)
    requires PlainWord(k) && PlainWord(v)
    ensures ParseLine(k + "  " + v) == Some((k, v))
  {
    TwoWordSplit(k, v);
    TwoWordEntry(k, v);
  }

  /** Two words around one separator make the entry of those two words. */
  lemma TwoWordEntry(k: string, v: string)
    requires PlainWord(k) && PlainWord(v)
    ensures EntryOf(TokensOf(FieldsOf([k, "  ", v]))) == Some((k, v))
  {
    assert !IsSpace(k[0]) && !IsSpace(v[0]);
    assert NonBlank([k, "  ", v]) == [k, v] by {
      assert Blank("  ");
      KeptWordThenBlank([], [], k, "  ");
      assert [] + [k] + ["  "] == [k, "  "];
      NonBlankSnoc([k, "  "], v);
      assert [k, "  "] + [v] == [k, "  ", v];
    }
    assert FieldsOf([k, "  ", v]) == [k, v];
    RemoveSpacesPlain(k);
    RemoveSpacesPlain(v);
    assert TokensOf([k, v]) == [k, v];
  }

  lemma RemoveSpacesPlain(s: string)
    requires NoSpace(s)
    ensures RemoveSpaces(s) == s
  {
    RemoveAllNone(s, IsSpace);
  }

  /** One line per entry, key and value separated by two spaces. */
  function Render(m: OMap<string>): (lines: seq<string>)
    ensures |lines| == |m|
  {
    seq(|m|, i requires 0 <= i < |m| => m[i].0 + "  " + m[i].1)
  }

  /** Extracting from the rendered lines of a dictionary of plain words gives the
      dictionary back, entry for entry and in order; so extraction is idempotent on
      such headers. */
  lemma {:induction false} FilterMetaDataRender(m: OMap<string>)
    requires Distinct(m)
    requires forall i :: 0 <= i < |m| ==> PlainWord(m[i].0) && PlainWord(m[i].1)
    ensures FilterMetaData(Render(m)) == m
    decreases |m|
  {
    if |m| == 0 {
      assert Render(m) == [];
    } else {
      var front, k, v := m[..|m| - 1], m[|m| - 1].0, m[|m| - 1].1;
      assert m == front + [(k, v)];
      assert Render(m) == Render(front) + [k + "  " + v];
      assert !HasKey(front, k);
      FilterMetaDataRender(front);
      ParseRendered(k, v);
      FilterMetaDataFresh(Render(front), k + "  " + v, front, k, v);
    }
  }

  /** A line whose entry has a new key appends that entry. */
  lemma FilterMetaDataFresh(lines: seq<string>, line: string, m: OMap<string>, k: string, v: string)
    requires FilterMetaData(lines) == m && ParseLine(line) == Some((k, v)) && !HasKey(m, k)
    ensures FilterMetaData(lines + [line]) == m + [(k, v)]
  {
    assert (lines + [line])[..|lines|] == lines;
    PutFresh(m, k, v);
  }

  /** A word, two whitespace characters, then a remainder that does not start with
      whitespace. */
  lemma RegexSplitPair(w: string, rest: string)
    requires NoSpace(w) && |rest| > 0 && !IsSpace(rest[0])
    ensures RegexSplit(w + "  " + rest) == [w, "  "] + RegexSplit(rest)
  {
    assert |"  "| == 2 && Blank("  ");
    RegexSplitWord(w, "  ", rest);
  }

  lemma TwoWordSplit(v: string, x: string)
    requires PlainWord(v) && PlainWord(x)
    ensures RegexSplit(v + "  " + x) == [v, "  ", x]
  {
    RegexSplitSingle(x);
    RegexSplitPair(v, x);
    SplitPrepend(v + "  " + x, x, v, "  ", [x]);
  }

  /** Bookkeeping for TwoWordSplit: two pieces in front of a known split. */
  lemma SplitPrepend(s: string, t: string, a: string, b: string, tail: seq<string>)
    requires RegexSplit(s) == [a, b] + RegexSplit(t) && RegexSplit(t) == tail
    ensures RegexSplit(s) == [a, b] + tail
  {
  }

  /** Bookkeeping for ThreeWordSplit: two items in front of three known ones. */
  lemma Prepend3<T>(xs: seq<T>, ys: seq<T>, a: T, b: T, c: T, d: T, e: T)
    requires xs == [a, b] + ys && ys == [c, d, e]
    ensures xs == [a, b, c, d, e]
  {
  }

  /** Bookkeeping for ThreeFieldSplit: two items in front of five known ones. */
  lemma Prepend5<T>(xs: seq<T>, ys: seq<T>, a: T, b: T, c: T, d: T, e: T, f: T, g: T)
    requires xs == [a, b] + ys && ys == [c, d, e, f, g]
    ensures xs == [a, b, c, d, e, f, g]
  {
  }

  lemma ThreeWordSplit(k: string, v: string, x: string, sp: string)
    requires PlainWord(k) && PlainWord(v) && PlainWord(x)
    requires Blank(sp) && |sp| >= 2 && |sp| % 2 == 0
    ensures RegexSplit(k + sp + (v + "  " + x)) == [k, sp[|sp| - 2..], v, "  ", x]
  {
    var t := v + "  " + x;
    TwoWordSplit(v, x);
    RegexSplitWord(k, sp, t);
    Prepend3(RegexSplit(k + sp + t), RegexSplit(t), k, sp[|sp| - 2..], v, "  ", x);
  }

  lemma ThreeFieldSplit(h: string, k: string, v: string, x: string, sp: string)
    requires NoSpace(h) && PlainWord(k) && PlainWord(v) && PlainWord(x)
    requires Blank(sp) && |sp| >= 2 && |sp| % 2 == 0
    ensures RegexSplit(h + "  " + (k + sp + (v + "  " + x))) == [h, "  ", k, sp[|sp| - 2..], v, "  ", x]
  {
    var rest := k + sp + (v + "  " + x);
    assert rest[0] == k[0] && !IsSpace(k[0]);
    RegexSplitPair(h, rest);
    ThreeWordSplit(k, v, x, sp);
    Prepend5(RegexSplit(h + "  " + rest), RegexSplit(rest), h, "  ", k, sp[|sp| - 2..], v, "  ", x);
  }

  lemma KeptWordThenBlank(ps: seq<string>, kept: seq<string>, w: string, b: string)
    requires NonBlank(ps) == kept && !Blank(w) && Blank(b)
    ensures NonBlank(ps + [w] + [b]) == kept + [w]
  {
    NonBlankSnoc(ps, w);
    NonBlankSnoc(ps + [w], b);
  }

  lemma ThreeFieldKept(h: string, k: string, v: string, x: string, sep: string)
    requires !Blank(h) && !Blank(k) && !Blank(v) && !Blank(x) && Blank(sep)
    ensures NonBlank([h, "  ", k, sep, v, "  ", x]) == [h, k, v, x]
  {
    assert Blank("  ");
    KeptWordThenBlank([], [], h, "  ");
    assert [] + [h] + ["  "] == [h, "  "];
    KeptWordThenBlank([h, "  "], [h], k, sep);
    assert [h, "  "] + [k] + [sep] == [h, "  ", k, sep];
    KeptWordThenBlank([h, "  ", k, sep], [h, k], v, "  ");
    assert [h, "  ", k, sep] + [v] + ["  "] == [h, "  ", k, sep, v, "  "];
    NonBlankSnoc([h, "  ", k, sep, v, "  "], x);
    assert [h, "  ", k, sep, v, "  "] + [x] == [h, "  ", k, sep, v, "  ", x];
  }

  lemma ThreeFieldPieces(k: string, v: string, x: string, sep: string)
    requires PlainWord(k) && PlainWord(v) && PlainWord(x) && Separator(sep)
    ensures EntryOf(TokensOf(FieldsOf(["#", "  ", k, sep, v, "  ", x]))) == Some((k, v))
  {
    assert !IsSpace(k[0]) && !IsSpace(v[0]) && !IsSpace(x[0]);
    assert !Blank("#") by {
      assert !IsSpace("#"[0]);
    }
    ThreeFieldKept("#", k, v, x, sep);
    assert FieldsOf(["#", "  ", k, sep, v, "  ", x]) == ["", k, v, x] by {
      assert StripHash("#") == "";
    }
    RemoveSpacesPlain(k);
    RemoveSpacesPlain(v);
    RemoveSpacesPlain(x);
    assert TokensOf(["", k, v, x]) == [k, v, x];
  }

  /** A commented line with a trailing extra word: the leading `#` leaves an empty
      first field, three fields survive, so the first is dropped and the trailing word
      is ignored. */
  lemma ExtraFieldDropped(k: string, v: string, x: string, sp: string)
    requires PlainWord(k) && PlainWord(v) && PlainWord(x)
    requires Blank(sp) && |sp| >= 2 && |sp| % 2 == 0
    ensures ParseLine("#" + "  " + (k + sp + (v + "  " + x))) == Some((k, v))
  {
    var sep := sp[|sp| - 2..];
    assert Separator(sep) by {
      assert sep[0] == sp[|sp| - 2] && sep[1] == sp[|sp| - 1];
    }
    ThreeFieldSplit("#", k, v, x, sp);
    ThreeFieldPieces(k, v, x, sep);
  }

  // An example header line, taken apart into the shape ExtraFieldDropped expects.
  // The literal string equalities are split one per lemma, each a separate solver task.

  lemma LensWords()
    ensures PlainWord("AnalyzerLens:") && PlainWord("MM_Momentum") && PlainWord("Fixed")
    ensures Blank("    ") && |"    "| == 4
  {
  }

  lemma LensLine()
    ensures "#  AnalyzerLens:    MM_Momentum  Fixed" == "#" + "  " + "AnalyzerLens:    MM_Momentum  Fixed"
    ensures "AnalyzerLens:    MM_Momentum  Fixed" == "AnalyzerLens:" + "    " + "MM_Momentum  Fixed"
    ensures "MM_Momentum  Fixed" == "MM_Momentum" + "  " + "Fixed"
  {
    LensHead();
    LensMiddle();
    LensTail();
  }

  /** The `#` and the first separator. */
  lemma LensHead()
    ensures "#  AnalyzerLens:    MM_Momentum  Fixed" == "#" + "  " + "AnalyzerLens:    MM_Momentum  Fixed"
  {
    assert "#" + "  " == "#  ";
    LensHash();
  }

  /** The `#` with the first separator, as one literal. */
  lemma LensHash()
    ensures "#  AnalyzerLens:    MM_Momentum  Fixed" == "#  " + "AnalyzerLens:    MM_Momentum  Fixed"
  {
  }

  /** The key, the four-space run and the rest. */
  lemma LensMiddle()
    ensures "AnalyzerLens:    MM_Momentum  Fixed" == "AnalyzerLens:" + "    " + "MM_Momentum  Fixed"
  {
  }

  /** The value, the separator and the trailing word. */
  lemma LensTail()
    ensures "MM_Momentum  Fixed" == "MM_Momentum" + "  " + "Fixed"
  {
  }

  /** An example header line, `#  AnalyzerLens:    MM_Momentum  Fixed` (the setting
      `AnalyzerLens:` is read at data_loading.py:228). */
  lemma AnalyzerLensExample(line: string)
    requires line == "#  AnalyzerLens:    MM_Momentum  Fixed"
    ensures ParseLine(line) == Some(("AnalyzerLens:", "MM_Momentum"))
  {
    LensWords();
    LensLine();
    ExtraFieldDropped("AnalyzerLens:", "MM_Momentum", "Fixed", "    ");
  }
}

=== FILE: ordered_map.dfy ===
/** Python dictionaries with string keys, as the loader uses them: an insertion-ordered
    list of entries in which assigning to an existing key overwrites the value in place
    and assigning to a new key appends an entry. */
module OrderedMap {
  import opened Wrappers

  type OMap<V> = seq<(string, V)>

  /** `list(d.keys())`. */
  function Keys<V>(m: OMap<V>): (ks: seq<string>)
    ensures |ks| == |m|
    ensures forall i :: 0 <= i < |m| ==> ks[i] == m[i].0
  {
    seq(|m|, i requires 0 <= i < |m| => m[i].0)
  }

  lemma KeysSnoc<V>(m: OMap<V>, k: string, v: V)
    ensures Keys(m + [(k, v)]) == Keys(m) + [k]
  {
  }

  /** No key appears twice: the invariant every dictionary keeps. */
  predicate Distinct<V>(m: OMap<V>) {
    forall i, j :: 0 <= i < j < |m| ==> m[i].0 != m[j].0
  }

  predicate HasKey<V>(m: OMap<V>, k: string) {
    exists i :: 0 <= i < |m| && m[i].0 == k
  }

  /** The position of the first entry with key `k`, or -1. */
  function IndexOf<V>(m: OMap<V>, k: string): (r: int)
    ensures -1 <= r < |m|
    ensures r >= 0 ==> m[r].0 == k
    ensures forall i :: 0 <= i < |m| && (r == -1 || i < r) ==> m[i].0 != k
    decreases |m|
  {
    if |m| == 0 then -1
    else if m[0].0 == k then 0
    else
      var r := IndexOf(m[1..], k);
      if r < 0 then -1 else r + 1
  }

  lemma IndexOfSameKeys<V, W>(m: OMap<V>, n: OMap<W>, k: string)
    requires |m| == |n|
    requires forall i :: 0 <= i < |m| ==> m[i].0 == n[i].0
    ensures IndexOf(m, k) == IndexOf(n, k)
  {
    var a, b := IndexOf(m, k), IndexOf(n, k);
    if a >= 0 && b >= 0 {
      assert !(a < b) && !(b < a);
    }
  }

  lemma IndexOfExtend<V>(m: OMap<V>, r: OMap<V>, k: string)
    requires |m| <= |r| && r[..|m|] == m
    requires forall j :: |m| <= j < |r| ==> r[j].0 != k
    ensures IndexOf(r, k) == IndexOf(m, k)
  {
    var a, b := IndexOf(m, k), IndexOf(r, k);
    assert forall j :: 0 <= j < |m| ==> r[j] == m[j];
    if a >= 0 {
      assert r[a].0 == k;
      assert b >= 0 && b <= a;
    }
  }

  /** `d[k]`, or None where Python raises `KeyError`. */
  function Get<V>(m: OMap<V>, k: string): (r: Option<V>)
    ensures r.Some? <==> HasKey(m, k)
  {
    var i := IndexOf(m, k);
    if i < 0 then None else Some(m[i].1)
  }

  lemma GetDistinct<V>(m: OMap<V>, i: int)
    requires Distinct(m) && 0 <= i < |m|
    ensures Get(m, m[i].0) == Some(m[i].1)
  {
  }

  /** `d[list(d.keys())[-1]]`: the value filed under the last key, or None where the
      dictionary is empty and Python raises `IndexError`. */
  function LastKeyValue<V>(m: OMap<V>): (r: Option<V>)
    ensures r.None? <==> |m| == 0
    ensures r.Some? ==> exists i :: 0 <= i < |m| && m[i].0 == m[|m| - 1].0 && r.value == m[i].1
    ensures Distinct(m) && |m| > 0 ==> r == Some(m[|m| - 1].1)
  {
    if |m| == 0 then None else Get(m, m[|m| - 1].0)
  }

  /** `d[k] = v`. */
  function Put<V>(m: OMap<V>, k: string, v: V): (r: OMap<V>)
    ensures Get(r, k) == Some(v)
    ensures forall k' :: k' != k ==> Get(r, k') == Get(m, k')
    ensures Distinct(m) ==> Distinct(r)
    ensures |r| == if HasKey(m, k) then |m| else |m| + 1
    ensures forall i :: 0 <= i < |m| ==> r[i].0 == m[i].0
    ensures !HasKey(m, k) ==> r[|m|] == (k, v)
    ensures forall e :: e in r ==> e == (k, v) || e in m
  {
    var i := IndexOf(m, k);
    if i < 0 then
      AppendNew(m, k, v);
      m + [(k, v)]
    else
      Overwrite(m, i, k, v);
      m[i := (k, v)]
  }

  lemma AppendNew<V>(m: OMap<V>, k: string, v: V)
    requires IndexOf(m, k) < 0
    ensures !HasKey(m, k)
    ensures Get(m + [(k, v)], k) == Some(v)
    ensures forall k' :: k' != k ==> Get(m + [(k, v)], k') == Get(m, k')
    ensures Distinct(m) ==> Distinct(m + [(k, v)])
  {
    var r := m + [(k, v)];
    forall k' | k' != k
      ensures Get(r, k') == Get(m, k')
    {
      IndexOfExtend(m, r, k');
    }
    assert IndexOf(r, k) == |m| by {
      assert forall j :: 0 <= j < |m| ==> r[j] == m[j];
      assert r[|m|].0 == k;
    }
  }

  lemma Overwrite<V>(m: OMap<V>, i: int, k: string, v: V)
    requires 0 <= i < |m| && i == IndexOf(m, k)
    ensures HasKey(m, k)
    ensures Get(m[i := (k, v)], k) == Some(v)
    ensures forall k' :: k' != k ==> Get(m[i := (k, v)], k') == Get(m, k')
    ensures Distinct(m) ==> Distinct(m[i := (k, v)])
  {
    var r := m[i := (k, v)];
    forall k' | k' != k
      ensures Get(r, k') == Get(m, k')
    {
      IndexOfSameKeys(m, r, k');
    }
    IndexOfSameKeys(m, r, k);
  }

  /** Assigning a new key appends its entry. */
  lemma PutFresh<V>(m: OMap<V>, k: string, v: V)
    requires !HasKey(m, k)
    ensures Put(m, k, v) == m + [(k, v)]
  {
  }

  /** `d.update(ps)`: the assignments `d[k] = v` for the pairs of `ps` in order. */
  function PutAll<V>(m: OMap<V>, ps: seq<(string, V)>): (r: OMap<V>)
    ensures Distinct(m) ==> Distinct(r)
    ensures |m| <= |r| <= |m| + |ps|
    ensures forall i :: 0 <= i < |m| ==> r[i].0 == m[i].0
    decreases |ps|
  {
    if |ps| == 0 then m
    else Put(PutAll(m, ps[..|ps| - 1]), ps[|ps| - 1].0, ps[|ps| - 1].1)
  }

  /** Reference: the value of the last pair with key `k`. */
  function LastValue<V>(ps: seq<(string, V)>, k: string): Option<V>
    decreases |ps|
  {
    if |ps| == 0 then None
    else if ps[|ps| - 1].0 == k then Some(ps[|ps| - 1].1)
    else LastValue(ps[..|ps| - 1], k)
  }

  lemma {:induction false} LastValueSome<V>(ps: seq<(string, V)>, k: string)
    ensures LastValue(ps, k).Some? <==> exists i :: 0 <= i < |ps| && ps[i].0 == k
    decreases |ps|
  {
    if |ps| > 0 {
      LastValueSome(ps[..|ps| - 1], k);
      assert forall i :: 0 <= i < |ps| - 1 ==> ps[..|ps| - 1][i] == ps[i];
    }
  }

  /** Every pair of the result is one of the assigned pairs. */
  lemma {:induction false} PutAllFrom<V>(ps: seq<(string, V)>)
    ensures forall e :: e in PutAll([], ps) ==> e in ps
    decreases |ps|
  {
    if |ps| > 0 {
      PutAllFrom(ps[..|ps| - 1]);
    }
  }

  /** The last pair naming `k` supplies its value. */
  lemma {:induction false} LastValueAt<V>(ps: seq<(string, V)>, k: string, j: int)
    requires 0 <= j < |ps| && ps[j].0 == k
    requires forall i :: j < i < |ps| ==> ps[i].0 != k
    ensures LastValue(ps, k) == Some(ps[j].1)
    decreases |ps|
  {
    if j < |ps| - 1 {
      var front := ps[..|ps| - 1];
      LastValueAt(front, k, j);
    }
  }

  /** After `d.update(ps)`, a key holds the value of the last pair that names it, and
      keys no pair names keep their old values: later assignments win. */
  lemma {:induction false} GetPutAll<V>(m: OMap<V>, ps: seq<(string, V)>, k: string)
    ensures Get(PutAll(m, ps), k) == if LastValue(ps, k).Some? then LastValue(ps, k) else Get(m, k)
    decreases |ps|
  {
    if |ps| > 0 {
      GetPutAll(m, ps[..|ps| - 1], k);
    }
  }

  lemma {:induction false} LastValueDistinct<V>(ps: seq<(string, V)>, k: string)
    requires Distinct(ps)
    ensures LastValue(ps, k) == Get(ps, k)
    decreases |ps|
  {
    if |ps| > 0 {
      var front := ps[..|ps| - 1];
      assert Distinct(front);
      LastValueDistinct(front, k);
      if ps[|ps| - 1].0 != k {
        IndexOfExtend(front, ps, k);
      }
    }
  }

  /** Assignments with pairwise distinct keys to an empty dictionary build exactly
      that list of pairs. */
  lemma {:induction false} PutAllDistinct<V>(ps: seq<(string, V)>)
    requires Distinct(ps)
    ensures PutAll([], ps) == ps
    decreases |ps|
  {
    if |ps| > 0 {
      var front, k, v := ps[..|ps| - 1], ps[|ps| - 1].0, ps[|ps| - 1].1;
      assert ps == front + [(k, v)];
      assert Distinct(front);
      assert !HasKey(front, k);
      PutAllDistinct(front);
      PutFresh(front, k, v);
    }
  }

  lemma {:induction false} PutAllAppend<V>(m: OMap<V>, a: seq<(string, V)>, b: seq<(string, V)>)
    ensures PutAll(m, a + b) == PutAll(PutAll(m, a), b)
    decreases |b|
  {
    if |b| == 0 {
      assert a + b == a;
    } else {
      assert (a + b)[..|a + b| - 1] == a + b[..|b| - 1];
      PutAllAppend(m, a, b[..|b| - 1]);
    }
  }

  /** The first key ever assigned stays the first key. */
  lemma PutAllFirstKey<V>(ps: seq<(string, V)>)
    requires |ps| > 0
    ensures |PutAll([], ps)| > 0 && PutAll([], ps)[0].0 == ps[0].0
  {
    assert ps == [ps[0]] + ps[1..];
    PutAllAppend([], [ps[0]], ps[1..]);
    assert PutAll([], [ps[0]]) == [ps[0]] by {
      assert [ps[0]][..0] == [];
    }
  }
}

=== FILE: reconstruct.dfy ===
/** `load_to_xarray` up to the numpy conversion: look up one trial, fold its settings
    into the shared settings, group its cycle records into cuts, and patch the last cut
    with the final curve of the document. */
module Reconstruct {
  import opened Wrappers
  import opened Text
  import opened OrderedMap
  import opened Lines
  import opened Tree

  /** One cut: the data-row blocks of the cycles it groups. */
  type Cut = seq<seq<Row>>

  /** Where `load_to_xarray` got to: one of its early return codes, or the cuts it
      hands to numpy. */
  datatype Outcome = Returned(code: int) | Reached(cuts: seq<Cut>)

  /** The exceptions it lets escape before the numpy conversion. */
  datatype XError =
    | BadCutIndex(key: string)  // `int(...)` raises ValueError
    | EmptyDictionary           // `list(...)[-1]` on an empty dictionary raises IndexError
    | ShortSetting              // `value[1]` on a setting string shorter than 2 raises IndexError
    | NotACurve                 // the final value is a character, not a block of rows
    | TooFewCuts                // `cuts[-2]` on a single cut raises IndexError

  /** The document after the call (its settings are updated in place) and the result. */
  datatype Run = Run(doc: Document, outcome: Result<Outcome, XError>)

  // ---------------------------------------------------------------------------
  // Lookup

  /** `data['groups'][group_name][trial_name]`, with the two KeyErrors turned into the
      return codes 1 and 2. */
  function Lookup(doc: Document, groupName: string, trialName: string): (r: Result<Trial, int>)
    ensures r == Err(1) <==> !HasKey(doc.groups, groupName)
    ensures r == Err(2) <==> HasKey(doc.groups, groupName) && !HasKey(Get(doc.groups, groupName).value, trialName)
    ensures r.Ok? ==> Get(doc.groups, groupName).Some? && Get(Get(doc.groups, groupName).value, trialName) == Some(r.value)
  {
    match Get(doc.groups, groupName)
    case None => Err(1)
    case Some(group) =>
      match Get(group, trialName)
      case None => Err(2)
      case Some(trial) => Ok(trial)
  }

  // ---------------------------------------------------------------------------
  // Settings

  /** `settings.update({key: value})` for every trial entry that is not a cycle, in
      order. */
  function MergeSettings(settings: OMap<string>, trial: Trial): (r: OMap<string>)
    ensures Distinct(settings) ==> Distinct(r)
    ensures |settings| <= |r| && forall i :: 0 <= i < |settings| ==> r[i].0 == settings[i].0
    decreases |trial|
  {
    if |trial| == 0 then settings
    else
      var m := MergeSettings(settings, trial[..|trial| - 1]);
      match trial[|trial| - 1].1
      case Scalar(s) => Put(m, trial[|trial| - 1].0, s)
      case Curve(_, _) => m
  }

  /** Reference: the setting string the trial gives `k`, if any. */
  function TrialSetting(trial: Trial, k: string): Option<string> {
    match Get<Value>(trial, k)
    case Some(Scalar(s)) => Some(s)
    case _ => None
  }

  /** After the merge a key holds the trial's setting when the trial has one, and its
      old value otherwise (a cycle under the same name leaves it alone). */
  lemma {:induction false} MergeSettingsGet(settings: OMap<string>, trial: Trial, k: string)
    requires Distinct(trial)
    ensures Get(MergeSettings(settings, trial), k)
         == if TrialSetting(trial, k).Some? then TrialSetting(trial, k) else Get(settings, k)
    decreases |trial|
  {
    if |trial| > 0 {
      var front := trial[..|trial| - 1];
      assert Distinct(front);
      MergeSettingsGet(settings, front, k);
      if trial[|trial| - 1].0 != k {
        IndexOfExtend(front, trial, k);
      } else {
        assert IndexOf(trial, k) == |trial| - 1 by {
          assert forall i :: 0 <= i < |front| ==> trial[i].0 != k;
        }
      }
    }
  }

  // ---------------------------------------------------------------------------
  // Cuts

  /** The loop's variables: the closed cuts, the open cut (`array` in the source), and
      the number of the open cut (`cycle`). */
  datatype CutState = CutState(cuts: seq<Cut>, current: Cut, counter: nat)

  /** `int(re.sub(',', '', key[7:9]))`: the cycle number read from the eighth and ninth
      characters of the key. */
  function CutIndex(key: string): Option<int> {
    ParseInt(RemoveCommas(Slice(key, 7, 9)))
  }

  /** Fewer than 500 keys in the trial selects the one-cut branch. */
  const OneCutLimit := 500

  /** One iteration of the loop over the trial's entries. */
  function CutStep(st: CutState, entry: (string, Value), oneCut: bool, index: string -> Option<int>): (r: Result<CutState, XError>)
    ensures r.Ok? ==> st.counter <= r.value.counter <= st.counter + 1
    ensures !Numbered(entry) ==> r == Ok(st)
    ensures Numbered(entry) && oneCut ==> r == Ok(st.(current := st.current + [entry.1.rows]))
    ensures Numbered(entry) && !oneCut ==> (r == Err(BadCutIndex(entry.0)) <==> index(entry.0).None?)
    ensures Numbered(entry) && !oneCut && index(entry.0).Some? ==>
      var idx := index(entry.0).value;
      && (idx == st.counter ==> r == Ok(st.(current := st.current + [entry.1.rows])))
      && (idx == st.counter + 1 ==> r == Ok(CutState(st.cuts + [st.current], [entry.1.rows], st.counter + 1)))
      && (idx != st.counter && idx != st.counter + 1 ==> r == Ok(st))
  {
    match entry.1
    case Scalar(_) => Ok(st)
    case Curve(_, rows) =>
      if |rows| == 0 then Ok(st)
      else if oneCut then Ok(st.(current := st.current + [rows]))
      else
        match index(entry.0)
        case None => Err(BadCutIndex(entry.0))
        case Some(idx) =>
          if idx == st.counter then Ok(st.(current := st.current + [rows]))
          else if idx == st.counter + 1 then Ok(CutState(st.cuts + [st.current], [rows], st.counter + 1))
          else Ok(st)
  }

  /** The loop over the trial's entries; `index` reads a cycle number from a key. */
  function CutLoop(entries: OMap<Value>, oneCut: bool, index: string -> Option<int>): (r: Result<CutState, XError>)
    ensures r.Ok? ==> |r.value.cuts| == r.value.counter
    ensures oneCut ==> r.Ok? && r.value.cuts == []
    ensures r.Err? ==> r.error.BadCutIndex?
    decreases |entries|
  {
    if |entries| == 0 then Ok(CutState([], [], 0))
    else
      var st :- CutLoop(entries[..|entries| - 1], oneCut, index);
      CutStep(st, entries[|entries| - 1], oneCut, index)
  }

  /** The loop as the trial selects it. */
  function CutTrial(trial: Trial): Result<CutState, XError> {
    CutLoop(trial, |trial| < OneCutLimit, CutIndex)
  }

  /** Reference: the non-empty row blocks of the trial's cycles, in order. */
  function NonEmptyRecords(entries: OMap<Value>): seq<seq<Row>>
    decreases |entries|
  {
    if |entries| == 0 then []
    else
      var front := NonEmptyRecords(entries[..|entries| - 1]);
      match entries[|entries| - 1].1
      case Curve(_, rows) => if |rows| > 0 then front + [rows] else front
      case Scalar(_) => front
  }

  /** In the one-cut branch nothing is ever closed: every non-empty block goes, in
      order, into the single open cut, and nothing can fail. */
  lemma {:induction false} OneCutRecords(entries: OMap<Value>, index: string -> Option<int>)
    ensures CutLoop(entries, true, index) == Ok(CutState([], NonEmptyRecords(entries), 0))
    decreases |entries|
  {
    if |entries| > 0 {
      OneCutRecords(entries[..|entries| - 1], index);
    }
  }

  /** An entry whose rows the multi-cut branch must number. */
  predicate Numbered(entry: (string, Value)) {
    entry.1.Curve? && |entry.1.rows| > 0
  }

  /** The multi-cut branch fails exactly when some non-empty cycle's key does not yield
      a number. */
  lemma {:induction false} MultiCutFails(entries: OMap<Value>, index: string -> Option<int>)
    ensures CutLoop(entries, false, index).Err?
        <==> exists i :: 0 <= i < |entries| && Numbered(entries[i]) && index(entries[i].0).None?
    decreases |entries|
  {
    if |entries| > 0 {
      var front := entries[..|entries| - 1];
      MultiCutFails(front, index);
      assert forall i :: 0 <= i < |front| ==> front[i] == entries[i];
      if CutLoop(entries, false, index).Err? && CutLoop(front, false, index).Ok? {
        assert Numbered(entries[|entries| - 1]) && index(entries[|entries| - 1].0).None?;
      }
    }
  }

  /** The index of the last numbered entry, 0 before any. */
  function LastIndex(entries: OMap<Value>, index: string -> Option<int>): int
    decreases |entries|
  {
    if |entries| == 0 then 0
    else if Numbered(entries[|entries| - 1]) && index(entries[|entries| - 1].0).Some? then
      index(entries[|entries| - 1].0).value
    else LastIndex(entries[..|entries| - 1], index)
  }

  /** Cycle numbers as the export writes them: starting at 0 or 1, each numbered entry
      repeats the previous number or adds one. */
  predicate Steady(entries: OMap<Value>, index: string -> Option<int>)
    decreases |entries|
  {
    if |entries| == 0 then true
    else
      var front, e := entries[..|entries| - 1], entries[|entries| - 1];
      && Steady(front, index)
      && (Numbered(e) ==>
            index(e.0).Some? && (index(e.0).value == LastIndex(front, index) || index(e.0).value == LastIndex(front, index) + 1))
  }

  /** Reference: the blocks of the numbered entries whose number is `k`, in order. */
  function RecordsNumbered(entries: OMap<Value>, k: int, index: string -> Option<int>): seq<seq<Row>>
    decreases |entries|
  {
    if |entries| == 0 then []
    else
      var front := RecordsNumbered(entries[..|entries| - 1], k, index);
      var e := entries[|entries| - 1];
      if Numbered(e) && index(e.0) == Some(k) then front + [e.1.rows] else front
  }

  lemma {:induction false} SteadyBounded(entries: OMap<Value>, k: int, index: string -> Option<int>)
    requires Steady(entries, index) && k > LastIndex(entries, index)
    ensures LastIndex(entries, index) >= 0
    ensures RecordsNumbered(entries, k, index) == []
    decreases |entries|
  {
    if |entries| > 0 {
      SteadyBounded(entries[..|entries| - 1], k, index);
    }
  }

  /** Reference: cuts `0 .. n - 1`, cut `k` holding the blocks numbered `k`. */
  function NumberedCuts(entries: OMap<Value>, n: nat, index: string -> Option<int>): (r: seq<Cut>)
    ensures |r| == n && forall k :: 0 <= k < n ==> r[k] == RecordsNumbered(entries, k, index)
  {
    seq(n, k requires 0 <= k < n => RecordsNumbered(entries, k, index))
  }

  /** With steady numbering the multi-cut branch drops nothing: cut `k` holds exactly
      the blocks numbered `k`, in order, and the open cut is the last number seen. */
  lemma {:induction false} SteadyCuts(entries: OMap<Value>, index: string -> Option<int>)
    requires Steady(entries, index)
    ensures LastIndex(entries, index) >= 0
    ensures CutLoop(entries, false, index).Ok?
    ensures CutLoop(entries, false, index).value.counter == LastIndex(entries, index)
    ensures CutLoop(entries, false, index).value.cuts + [CutLoop(entries, false, index).value.current]
         == NumberedCuts(entries, LastIndex(entries, index) + 1, index)
    decreases |entries|
  {
    SteadyBounded(entries, LastIndex(entries, index) + 1, index);
    if |entries| > 0 {
      var front, e := entries[..|entries| - 1], entries[|entries| - 1];
      SteadyCuts(front, index);
      var st := CutLoop(front, false, index).value;
      var c := LastIndex(front, index);
      if !Numbered(e) {
        UnnumberedStep(entries, c + 1, index);
      } else if index(e.0).value == c {
        SameCutStep(entries, st.cuts, st.current, index);
      } else {
        SteadyBounded(front, c + 1, index);
        NextCutStep(entries, st.cuts, st.current, index);
      }
    }
  }

  /** An entry with nothing to number changes no cut. */
  lemma UnnumberedStep(entries: OMap<Value>, n: nat, index: string -> Option<int>)
    requires |entries| > 0 && !Numbered(entries[|entries| - 1])
    ensures NumberedCuts(entries, n, index) == NumberedCuts(entries[..|entries| - 1], n, index)
  {
  }

  /** A block numbered like the open cut joins it. */
  lemma SameCutStep(entries: OMap<Value>, cuts: seq<Cut>, current: Cut, index: string -> Option<int>)
    requires |entries| > 0
    requires var front, e := entries[..|entries| - 1], entries[|entries| - 1];
      && LastIndex(front, index) >= 0 && Numbered(e) && index(e.0) == Some(LastIndex(front, index))
      && cuts + [current] == NumberedCuts(front, LastIndex(front, index) + 1, index)
    ensures cuts + [current + [entries[|entries| - 1].1.rows]]
         == NumberedCuts(entries, LastIndex(entries[..|entries| - 1], index) + 1, index)
  {
    var front, e := entries[..|entries| - 1], entries[|entries| - 1];
    var c := LastIndex(front, index);
    var before, after := NumberedCuts(front, c + 1, index), NumberedCuts(entries, c + 1, index);
    var got := cuts + [current + [e.1.rows]];
    forall k | 0 <= k <= c
      ensures got[k] == after[k]
    {
      if k < c {
        assert got[k] == (cuts + [current])[k] == before[k];
      } else {
        assert current == before[c];
      }
    }
  }

  /** A block numbered one past the open cut closes it and opens a new one. */
  lemma NextCutStep(entries: OMap<Value>, cuts: seq<Cut>, current: Cut, index: string -> Option<int>)
    requires |entries| > 0
    requires var front, e := entries[..|entries| - 1], entries[|entries| - 1];
      && LastIndex(front, index) >= 0 && Numbered(e) && index(e.0) == Some(LastIndex(front, index) + 1)
      && RecordsNumbered(front, LastIndex(front, index) + 1, index) == []
      && cuts + [current] == NumberedCuts(front, LastIndex(front, index) + 1, index)
    ensures cuts + [current] + [[entries[|entries| - 1].1.rows]]
         == NumberedCuts(entries, LastIndex(entries[..|entries| - 1], index) + 2, index)
  {
    var front, e := entries[..|entries| - 1], entries[|entries| - 1];
    var c := LastIndex(front, index);
    var before, after := NumberedCuts(front, c + 1, index), NumberedCuts(entries, c + 2, index);
    var got := cuts + [current] + [[e.1.rows]];
    forall k | 0 <= k <= c + 1
      ensures got[k] == after[k]
    {
      if k <= c {
        assert got[k] == before[k];
      }
    }
  }

  /** `a` is `b` with some items left out, the order kept. */
  predicate Subseq<T(==)>(a: seq<T>, b: seq<T>)
    decreases |b|
  {
    || |a| == 0
    || (&& |b| > 0
        && (|| Subseq(a, b[..|b| - 1])
            || (|a| > 0 && a[|a| - 1] == b[|b| - 1] && Subseq(a[..|a| - 1], b[..|b| - 1]))))
  }

  /** A longer sequence keeps every subsequence, and both may grow by the same item. */
  lemma SubseqSnoc<T>(a: seq<T>, b: seq<T>, x: T)
    requires Subseq(a, b)
    ensures Subseq(a, b + [x]) && Subseq(a + [x], b + [x])
  {
    assert (b + [x])[..|b|] == b;
    assert (a + [x])[..|a|] == a;
  }

  /** Whatever the numbering, the multi-cut branch never files a block under the wrong
      number: one cut is closed per number passed, cut `k` holds only blocks numbered
      `k`, in their order, and the open cut holds only blocks numbered like it. Blocks
      numbered out of step are the ones left out. */
  lemma {:induction false} CutsHoldOwnNumbers(entries: OMap<Value>, index: string -> Option<int>)
    requires CutLoop(entries, false, index).Ok?
    ensures FiledByNumber(entries, CutLoop(entries, false, index).value, index)
    decreases |entries|
  {
    if |entries| > 0 {
      var front := entries[..|entries| - 1];
      CutsHoldOwnNumbers(front, index);
      FiledStep(entries, CutLoop(front, false, index).value, index);
    }
  }

  /** The loop state `st` files every block of `entries` it kept under its own number. */
  predicate FiledByNumber(entries: OMap<Value>, st: CutState, index: string -> Option<int>) {
    && |st.cuts| == st.counter
    && (forall k :: 0 <= k < |st.cuts| ==> Subseq(st.cuts[k], RecordsNumbered(entries, k, index)))
    && Subseq(st.current, RecordsNumbered(entries, st.counter, index))
  }

  /** One step of the multi-cut loop keeps the blocks filed by number. */
  lemma FiledStep(entries: OMap<Value>, st0: CutState, index: string -> Option<int>)
    requires |entries| > 0 && FiledByNumber(entries[..|entries| - 1], st0, index)
    requires CutStep(st0, entries[|entries| - 1], false, index).Ok?
    ensures FiledByNumber(entries, CutStep(st0, entries[|entries| - 1], false, index).value, index)
  {
    var e := entries[|entries| - 1];
    if !Numbered(e) {
      forall k: int
        ensures RecordsNumbered(entries, k, index) == RecordsNumbered(entries[..|entries| - 1], k, index)
      {
      }
    } else if index(e.0).value == st0.counter {
      FiledSame(entries, st0, index);
    } else if index(e.0).value == st0.counter + 1 {
      FiledNext(entries, st0, index);
    } else {
      FiledSkip(entries, st0, index);
    }
  }

  /** The blocks numbered `k` once one more entry has been read. */
  lemma RecordsNumberedLast(entries: OMap<Value>, k: int, index: string -> Option<int>)
    requires |entries| > 0
    ensures var front, e := entries[..|entries| - 1], entries[|entries| - 1];
      RecordsNumbered(entries, k, index)
        == if Numbered(e) && index(e.0) == Some(k) then RecordsNumbered(front, k, index) + [e.1.rows]
           else RecordsNumbered(front, k, index)
  {
  }

  lemma FiledSame(entries: OMap<Value>, st0: CutState, index: string -> Option<int>)
    requires |entries| > 0 && FiledByNumber(entries[..|entries| - 1], st0, index)
    requires var e := entries[|entries| - 1]; Numbered(e) && index(e.0) == Some(st0.counter)
    ensures FiledByNumber(entries, st0.(current := st0.current + [entries[|entries| - 1].1.rows]), index)
  {
    var front, e := entries[..|entries| - 1], entries[|entries| - 1];
    forall k | 0 <= k < |st0.cuts|
      ensures RecordsNumbered(entries, k, index) == RecordsNumbered(front, k, index)
    {
      RecordsNumberedLast(entries, k, index);
    }
    RecordsNumberedLast(entries, st0.counter, index);
    SubseqSnoc(st0.current, RecordsNumbered(front, st0.counter, index), e.1.rows);
  }

  lemma FiledNext(entries: OMap<Value>, st0: CutState, index: string -> Option<int>)
    requires |entries| > 0 && FiledByNumber(entries[..|entries| - 1], st0, index)
    requires var e := entries[|entries| - 1]; Numbered(e) && index(e.0) == Some(st0.counter + 1)
    ensures FiledByNumber(entries, CutState(st0.cuts + [st0.current], [entries[|entries| - 1].1.rows], st0.counter + 1), index)
  {
    var front, e := entries[..|entries| - 1], entries[|entries| - 1];
    var st := CutState(st0.cuts + [st0.current], [e.1.rows], st0.counter + 1);
    forall k | 0 <= k < |st.cuts|
      ensures Subseq(st.cuts[k], RecordsNumbered(entries, k, index))
    {
      RecordsNumberedLast(entries, k, index);
      if k < |st0.cuts| {
        assert st.cuts[k] == st0.cuts[k];
      } else {
        assert st.cuts[k] == st0.current;
      }
    }
    RecordsNumberedLast(entries, st.counter, index);
    SubseqSnoc([], RecordsNumbered(front, st.counter, index), e.1.rows);
    assert [] + [e.1.rows] == st.current;
  }

  lemma FiledSkip(entries: OMap<Value>, st0: CutState, index: string -> Option<int>)
    requires |entries| > 0 && FiledByNumber(entries[..|entries| - 1], st0, index)
    requires var e := entries[|entries| - 1];
      Numbered(e) && index(e.0).Some? && index(e.0).value != st0.counter && index(e.0).value != st0.counter + 1
    ensures FiledByNumber(entries, st0, index)
  {
    var front, e := entries[..|entries| - 1], entries[|entries| - 1];
    forall k | 0 <= k < |st0.cuts|
      ensures Subseq(st0.cuts[k], RecordsNumbered(entries, k, index))
    {
      RecordsNumberedLast(entries, k, index);
      if index(e.0) == Some(k) {
        SubseqSnoc(st0.cuts[k], RecordsNumbered(front, k, index), e.1.rows);
      }
    }
    RecordsNumberedLast(entries, st0.counter, index);
  }

  // ---------------------------------------------------------------------------
  // The final curve and the patch

  /** What `groups[last][last][last][1]` evaluates to. */
  datatype Final = FinalRows(rows: seq<Row>) | FinalChar(c: char)

  /** The value `groups[last][last][last]` names: the last key's value of the last
      trial of the last group, or None where one of the three dictionaries is empty. */
  function LastLeaf(groups: OMap<Group>): (r: Option<Value>)
    ensures r.None? <==>
      || |groups| == 0
      || |LastKeyValue(groups).value| == 0
      || |LastKeyValue(LastKeyValue(groups).value).value| == 0
  {
    if |groups| == 0 then None
    else
      var group := LastKeyValue(groups).value;
      if |group| == 0 then None
      else
        var trial := LastKeyValue(group).value;
        if |trial| == 0 then None else LastKeyValue(trial)
  }

  /** The last key of the last trial of the last group of the whole document (not of
      the group asked for), and the second item of its value. */
  function FinalCurve(groups: OMap<Group>): (r: Result<Final, XError>)
    ensures r.Err? ==> r.error == EmptyDictionary || r.error == ShortSetting
    ensures r == Err(EmptyDictionary) <==> LastLeaf(groups).None?
    ensures LastLeaf(groups).Some? && LastLeaf(groups).value.Curve? ==>
      r == Ok(FinalRows(LastLeaf(groups).value.rows))
    ensures LastLeaf(groups).Some? && LastLeaf(groups).value.Scalar? ==>
      var s := LastLeaf(groups).value.text;
      && (r == Err(ShortSetting) <==> |s| < 2)
      && (|s| >= 2 ==> r == Ok(FinalChar(s[1])))
  {
    if |groups| == 0 then Err(EmptyDictionary)
    else
      var group: Group := Get(groups, groups[|groups| - 1].0).value;
      if |group| == 0 then Err(EmptyDictionary)
      else
        var trial: Trial := Get(group, group[|group| - 1].0).value;
        if |trial| == 0 then Err(EmptyDictionary)
        else
          match Get<Value>(trial, trial[|trial| - 1].0).value
          case Curve(_, rows) => Ok(FinalRows(rows))
          case Scalar(s) => if |s| < 2 then Err(ShortSetting) else Ok(FinalChar(s[1]))
  }

  /** When no key repeats on the way down, the value read is the last entry of the last
      trial of the last group, by position. */
  lemma FinalCurveLastEntries(groups: OMap<Group>)
    requires |groups| > 0 && Distinct(groups)
    requires var group := groups[|groups| - 1].1;
      |group| > 0 && Distinct(group) && |group[|group| - 1].1| > 0 && Distinct(group[|group| - 1].1)
    ensures var group := groups[|groups| - 1].1;
      var trial := group[|group| - 1].1;
      LastLeaf(groups) == Some(trial[|trial| - 1].1)
  {
  }

  /** When no key repeats on the way down, the final curve is missing exactly when one
      of the three levels is empty. */
  lemma FinalCurveEmpty(groups: OMap<Group>)
    requires Distinct(groups)
    requires |groups| > 0 ==> Distinct(groups[|groups| - 1].1)
    ensures FinalCurve(groups) == Err(EmptyDictionary) <==>
      || |groups| == 0
      || |groups[|groups| - 1].1| == 0
      || |groups[|groups| - 1].1[|groups[|groups| - 1].1| - 1].1| == 0
  {
  }

  /** Appends the final curve to the last cut. */
  function AppendFinal(cuts: seq<Cut>, fin: Final): (r: Result<seq<Cut>, XError>)
    requires |cuts| >= 1
    ensures r.Ok? <==> fin.FinalRows?
    ensures r.Ok? ==> |r.value| == |cuts| && r.value[..|cuts| - 1] == cuts[..|cuts| - 1]
    ensures r.Ok? ==> r.value[|cuts| - 1] == cuts[|cuts| - 1] + [fin.rows]
  {
    match fin
    case FinalRows(rows) => Ok(cuts[..|cuts| - 1] + [cuts[|cuts| - 1] + [rows]])
    case FinalChar(_) => Err(NotACurve)
  }

  /** As written: `len(cuts[-2])` is read even when there is only one cut. */
  function PatchFinalCutAsWritten(cuts: seq<Cut>, fin: Final): (r: Result<seq<Cut>, XError>)
    requires |cuts| >= 1
    ensures r.Err? <==> |cuts| == 1 || (|cuts[|cuts| - 2]| != |cuts[|cuts| - 1]| && fin.FinalChar?)
    ensures r.Ok? ==> |r.value| == |cuts| && r.value[..|cuts| - 1] == cuts[..|cuts| - 1]
  {
    if |cuts| < 2 then Err(TooFewCuts)
    else if |cuts[|cuts| - 2]| != |cuts[|cuts| - 1]| then AppendFinal(cuts, fin)
    else Ok(cuts)
  }

  /** Corrected: the last cut is compared with the one before it only when there is
      one; a single cut is left as it is. */
  function PatchFinalCut(cuts: seq<Cut>, fin: Final): (r: Result<seq<Cut>, XError>)
    requires |cuts| >= 1
    ensures |cuts| == 1 ==> r == Ok(cuts)
    ensures r.Ok? ==> |r.value| == |cuts| && r.value[..|cuts| - 1] == cuts[..|cuts| - 1]
    ensures r.Err? <==> |cuts| >= 2 && |cuts[|cuts| - 2]| != |cuts[|cuts| - 1]| && fin.FinalChar?
    ensures r.Ok? ==>
      r.value[|cuts| - 1]
        == if |cuts| >= 2 && |cuts[|cuts| - 2]| != |cuts[|cuts| - 1]| then cuts[|cuts| - 1] + [fin.rows] else cuts[|cuts| - 1]
  {
    if |cuts| >= 2 && |cuts[|cuts| - 2]| != |cuts[|cuts| - 1]| then AppendFinal(cuts, fin)
    else Ok(cuts)
  }

  /** The repair the patch is for: a last cut one block short of the cut before it is
      brought to the same length. */
  lemma PatchEvensShortCut(cuts: seq<Cut>, rows: seq<Row>)
    requires |cuts| >= 2 && |cuts[|cuts| - 1]| + 1 == |cuts[|cuts| - 2]|
    ensures PatchFinalCut(cuts, FinalRows(rows)).Ok?
    ensures var r := PatchFinalCut(cuts, FinalRows(rows)).value;
      |r[|r| - 1]| == |r[|r| - 2]| && r[|r| - 1] == cuts[|cuts| - 1] + [rows]
  {
    var r := PatchFinalCut(cuts, FinalRows(rows)).value;
    assert r[|r| - 2] == r[..|cuts| - 1][|cuts| - 2];
  }

  /** The patch fails, as written, exactly when the last cut is the only one. */
  lemma AsWrittenNeedsTwoCuts(cuts: seq<Cut>, fin: Final)
    requires |cuts| >= 1
    ensures PatchFinalCutAsWritten(cuts, fin) == Err(TooFewCuts) <==> |cuts| == 1
    ensures |cuts| >= 2 ==> PatchFinalCutAsWritten(cuts, fin) == PatchFinalCut(cuts, fin)
  {
  }

  // ---------------------------------------------------------------------------
  // The whole call

  /** Everything after the settings update: cut the trial, read the final curve and
      append the open cut. */
  function CutsAndFinal(doc: Document, trial: Trial): Result<(seq<Cut>, Final), XError> {
    var st :- CutTrial(trial);
    var fin :- FinalCurve(doc.groups);
    Ok((st.cuts + [st.current], fin))
  }

  /** `load_to_xarray(data, group_name, trial_name)` up to the numpy conversion, with
      the corrected patch. */
  function LoadToXarray(doc: Document, groupName: string, trialName: string): (run: Run)
    ensures run.doc.groups == doc.groups
    ensures run.outcome == Ok(Returned(1)) <==> !HasKey(doc.groups, groupName)
    ensures run.outcome == Ok(Returned(2)) <==> HasKey(doc.groups, groupName) && !HasKey(Get(doc.groups, groupName).value, trialName)
    ensures run.outcome.Ok? && run.outcome.value.Returned? ==> run.doc == doc
  {
    match Lookup(doc, groupName, trialName)
    case Err(code) => Run(doc, Ok(Returned(code)))
    case Ok(trial) =>
      var doc' := doc.(settings := MergeSettings(doc.settings, trial));
      var outcome := (
        var (cuts, fin) :- CutsAndFinal(doc', trial);
        var patched :- PatchFinalCut(cuts, fin);
        Ok(Reached(patched)));
      Run(doc', outcome)
  }

  /** The same call with the patch as written. */
  function LoadToXarrayAsWritten(doc: Document, groupName: string, trialName: string): (run: Run)
    ensures run.doc.groups == doc.groups
    ensures run.outcome == Ok(Returned(1)) <==> !HasKey(doc.groups, groupName)
    ensures run.outcome == Ok(Returned(2)) <==> HasKey(doc.groups, groupName) && !HasKey(Get(doc.groups, groupName).value, trialName)
    ensures run.outcome.Ok? && run.outcome.value.Returned? ==> run.doc == doc
  {
    match Lookup(doc, groupName, trialName)
    case Err(code) => Run(doc, Ok(Returned(code)))
    case Ok(trial) =>
      var doc' := doc.(settings := MergeSettings(doc.settings, trial));
      var outcome := (
        var (cuts, fin) :- CutsAndFinal(doc', trial);
        var patched :- PatchFinalCutAsWritten(cuts, fin);
        Ok(Reached(patched)));
      Run(doc', outcome)
  }

  /** The two calls update the settings alike, and differ only where the patch as
      written reads a cut before the last one that does not exist. */
  lemma AsWrittenAgrees(doc: Document, groupName: string, trialName: string)
    ensures LoadToXarrayAsWritten(doc, groupName, trialName).doc == LoadToXarray(doc, groupName, trialName).doc
    ensures LoadToXarrayAsWritten(doc, groupName, trialName).outcome != Err(TooFewCuts) ==>
      LoadToXarrayAsWritten(doc, groupName, trialName) == LoadToXarray(doc, groupName, trialName)
  {
    if Lookup(doc, groupName, trialName).Ok? {
      var trial := Lookup(doc, groupName, trialName).value;
      var doc' := doc.(settings := MergeSettings(doc.settings, trial));
      var cf := CutsAndFinal(doc', trial);
      if cf.Ok? {
        var (cuts, fin) := cf.value;
        AsWrittenNeedsTwoCuts(cuts, fin);
      }
    }
  }

  /** A trial with fewer than 500 keys comes out as one cut holding every non-empty
      block of its cycles, in order, once the final curve can be read. */
  lemma OneCutResult(doc: Document, groupName: string, trialName: string, trial: Trial)
    requires Lookup(doc, groupName, trialName) == Ok(trial)
    requires |trial| < OneCutLimit
    requires FinalCurve(doc.groups).Ok?
    ensures LoadToXarray(doc, groupName, trialName).outcome == Ok(Reached([NonEmptyRecords(trial)]))
  {
    OneCutRecords(trial, CutIndex);
  }

  /** As written, a trial with fewer than 500 keys never reaches the numpy stage: the
      call fails at `cuts[-2]` (or earlier, on a document whose final curve cannot be
      read). */
  lemma OneCutAsWrittenFails(doc: Document, groupName: string, trialName: string, trial: Trial)
    requires Lookup(doc, groupName, trialName) == Ok(trial)
    requires |trial| < OneCutLimit
    ensures LoadToXarrayAsWritten(doc, groupName, trialName).outcome.Err?
    ensures FinalCurve(doc.groups).Ok? ==> LoadToXarrayAsWritten(doc, groupName, trialName).outcome == Err(TooFewCuts)
  {
    OneCutRecords(trial, CutIndex);
  }

  /** A trial of 500 keys or more with steady cycle numbers comes out as the cuts of
      its numbered blocks, cut `k` holding the blocks numbered `k`, then patched. */
  lemma SteadyResult(doc: Document, groupName: string, trialName: string, trial: Trial)
    requires Lookup(doc, groupName, trialName) == Ok(trial)
    requires |trial| >= OneCutLimit && Steady(trial, CutIndex)
    requires FinalCurve(doc.groups).Ok?
    ensures LastIndex(trial, CutIndex) >= 0
    ensures var p := PatchFinalCut(NumberedCuts(trial, LastIndex(trial, CutIndex) + 1, CutIndex), FinalCurve(doc.groups).value);
      && (LoadToXarray(doc, groupName, trialName).outcome.Ok? <==> p.Ok?)
      && (p.Ok? ==> LoadToXarray(doc, groupName, trialName).outcome == Ok(Reached(p.value)))
  {
    SteadyCuts(trial, CutIndex);
  }

  /** The settings the call leaves behind: each key the trial sets as a string now holds
      the trial's value, every other key is unchanged. */
  lemma SettingsAfterCall(doc: Document, groupName: string, trialName: string, trial: Trial, k: string)
    requires Lookup(doc, groupName, trialName) == Ok(trial)
    requires Distinct(trial)
    ensures Get(LoadToXarray(doc, groupName, trialName).doc.settings, k)
         == if TrialSetting(trial, k).Some? then TrialSetting(trial, k) else Get(doc.settings, k)
  {
    MergeSettingsGet(doc.settings, trial, k);
  }
}

=== FILE: text.dfy ===
/** Character-level string operations with the semantics of the Python built-ins and
    regular expressions the loader relies on: `str.strip`, `in`, `str.rfind`,
    `str.split(sep)`, `re.split(r'(\s\s)+', ...)`, `re.sub(r'\s+', '', ...)` and `int`. */
module Text {
  import opened Wrappers

  /** The characters for which Python's `str.isspace()` holds; the regular-expression
      class `\s` matches the same characters in a `str` pattern. */
  predicate IsSpace(c: char) {
    || c == ' '
    || ('\t' <= c <= '\r')
    || ('\U{1C}' <= c <= '\U{1F}')
    || c == '\U{85}' || c == '\U{A0}' || c == '\U{1680}'
    || ('\U{2000}' <= c <= '\U{200A}')
    || c == '\U{2028}' || c == '\U{2029}' || c == '\U{202F}' || c == '\U{205F}' || c == '\U{3000}'
  }

  /** `re.fullmatch(r'\s*', s)` succeeds: `s` is empty or whitespace only. */
  predicate Blank(s: string) {
    forall i :: 0 <= i < |s| ==> IsSpace(s[i])
  }

  predicate NoSpace(s: string) {
    forall i :: 0 <= i < |s| ==> !IsSpace(s[i])
  }

  // ---------------------------------------------------------------------------
  // str.strip()

  /** Length of the whitespace run starting at `i`. */
  function SpaceRun(s: string, i: nat): (n: nat)
    requires i <= |s|
    ensures i + n <= |s|
    ensures forall j :: i <= j < i + n ==> IsSpace(s[j])
    ensures i + n == |s| || !IsSpace(s[i + n])
    decreases |s| - i
  {
    if i < |s| && IsSpace(s[i]) then 1 + SpaceRun(s, i + 1) else 0
  }

  /** Walking back from `j`, not below `lo`: the start of the whitespace run that
      ends at `j`. */
  function SpaceRunBack(s: string, lo: nat, j: nat): (i: nat)
    requires lo <= j <= |s|
    ensures lo <= i <= j
    ensures forall k :: i <= k < j ==> IsSpace(s[k])
    ensures i == lo || !IsSpace(s[i - 1])
    decreases j
  {
    if j > lo && IsSpace(s[j - 1]) then SpaceRunBack(s, lo, j - 1) else j
  }

  /** Python's `str.strip()`: the infix of `s` left after removing whitespace at both
      ends. */
  function Strip(s: string): (r: string)
    ensures r == [] || (!IsSpace(r[0]) && !IsSpace(r[|r| - 1]))
    ensures exists i :: 0 <= i <= i + |r| <= |s| && s[i..i + |r|] == r && Blank(s[..i]) && Blank(s[i + |r|..])
  {
    var a := SpaceRun(s, 0);
    var b := SpaceRunBack(s, a, |s|);
    assert Blank(s[..a]) && Blank(s[b..]) by {
      forall k | 0 <= k < a
        ensures IsSpace(s[..a][k])
      {
      }
      forall k | 0 <= k < |s| - b
        ensures IsSpace(s[b..][k])
      {
        assert s[b..][k] == s[b + k];
      }
    }
    s[a..b]
  }

  /** Leading whitespace in front of a text with no whitespace at either end is all
      `strip` removes from it; whitespace inside the text stays. */
  lemma StripBlankThenWord(sp: string, w: string)
    requires Blank(sp) && (w == [] || (!IsSpace(w[0]) && !IsSpace(w[|w| - 1])))
    ensures Strip(sp + w) == w
  {
    var s := sp + w;
    assert forall k :: 0 <= k < |sp| ==> IsSpace(s[k]) by {
      forall k | 0 <= k < |sp|
        ensures IsSpace(s[k])
      {
        assert s[k] == sp[k];
      }
    }
    if |w| > 0 {
      assert !IsSpace(s[|sp|]) && !IsSpace(s[|s| - 1]) by {
        assert s[|sp|] == w[0] && s[|s| - 1] == w[|w| - 1];
      }
    }
    SpaceRunExactly(s, |sp|);
    SpaceRunBackNone(s, |sp|);
    assert s[|sp|..|s|] == w;
  }

  /** A whitespace run of known length `n` from the start. */
  lemma SpaceRunExactly(s: string, n: nat)
    requires n <= |s| && forall k :: 0 <= k < n ==> IsSpace(s[k])
    requires n == |s| || !IsSpace(s[n])
    ensures SpaceRun(s, 0) == n
  {
    var a := SpaceRun(s, 0);
    assert a <= n;
  }

  /** No whitespace at the end: walking back stops at once. */
  lemma SpaceRunBackNone(s: string, lo: nat)
    requires lo <= |s| && (lo == |s| || !IsSpace(s[|s| - 1]))
    ensures SpaceRunBack(s, lo, |s|) == |s|
  {
  }

  /** `s` with every character for which `drop` holds removed; the others stay, in
      order. */
  function RemoveAll(s: string, drop: char -> bool): (r: string)
    ensures forall i :: 0 <= i < |r| ==> !drop(r[i])
    ensures |r| <= |s|
    ensures |s| == 1 ==> r == if drop(s[0]) then [] else s
    decreases |s|
  {
    if |s| == 0 then []
    else if drop(s[|s| - 1]) then RemoveAll(s[..|s| - 1], drop)
    else RemoveAll(s[..|s| - 1], drop) + [s[|s| - 1]]
  }

  /** Removal works piece by piece: what is kept of `a + b` is what is kept of `a`
      followed by what is kept of `b`. With the one-character case of `RemoveAll`
      this fixes the result for every input. */
  lemma {:induction false} RemoveAllAppend(a: string, b: string, drop: char -> bool)
    ensures RemoveAll(a + b, drop) == RemoveAll(a, drop) + RemoveAll(b, drop)
    decreases |b|
  {
    if |b| == 0 {
      assert a + b == a;
    } else {
      var b' := b[..|b| - 1];
      assert (a + b)[..|a + b| - 1] == a + b';
      RemoveAllAppend(a, b', drop);
    }
  }

  /** Nothing to remove leaves the text as it is. */
  lemma {:induction false} RemoveAllNone(s: string, drop: char -> bool)
    requires forall i :: 0 <= i < |s| ==> !drop(s[i])
    ensures RemoveAll(s, drop) == s
    decreases |s|
  {
    if |s| > 0 {
      RemoveAllNone(s[..|s| - 1], drop);
    }
  }

  /** `re.sub(r'\s+', '', s)`: every whitespace character removed, the others kept
      in order. */
  function RemoveSpaces(s: string): (r: string)
    ensures NoSpace(r)
    ensures |s| == 1 ==> r == if IsSpace(s[0]) then [] else s
  {
    RemoveAll(s, IsSpace)
  }

  lemma RemoveSpacesAppend(a: string, b: string)
    ensures RemoveSpaces(a + b) == RemoveSpaces(a) + RemoveSpaces(b)
  {
    RemoveAllAppend(a, b, IsSpace);
  }

  /** `re.sub('^#', '', s)`: one leading `#` removed. */
  function StripHash(s: string): string {
    if |s| > 0 && s[0] == '#' then s[1..] else s
  }

  /** `s[n:]` for a non-negative `n`: Python slicing never fails past the end. */
  function Drop(s: string, n: nat): string {
    if n <= |s| then s[n..] else []
  }

  // ---------------------------------------------------------------------------
  // Substring search

  predicate OccursAt(s: string, sub: string, i: int) {
    0 <= i && i + |sub| <= |s| && s[i..i + |sub|] == sub
  }

  /** Python's `sub in s`. */
  predicate Contains(s: string, sub: string)
    decreases |s|
  {
    sub <= s || (|s| > 0 && Contains(s[1..], sub))
  }

  lemma {:induction false} OccursImpliesContains(s: string, sub: string, i: int)
    requires OccursAt(s, sub, i)
    ensures Contains(s, sub)
    decreases i
  {
    if i > 0 {
      assert s[1..][i - 1..i - 1 + |sub|] == s[i..i + |sub|];
      OccursImpliesContains(s[1..], sub, i - 1);
    } else {
      assert sub <= s;
    }
  }

  lemma {:induction false} ContainsImpliesOccurs(s: string, sub: string) returns (i: int)
    requires Contains(s, sub)
    ensures OccursAt(s, sub, i)
    decreases |s|
  {
    if sub <= s {
      i := 0;
    } else {
      var j := ContainsImpliesOccurs(s[1..], sub);
      assert s[1..][j..j + |sub|] == s[j + 1..j + 1 + |sub|];
      i := j + 1;
    }
  }

  /** `sub in s` holds exactly when `sub` occurs at some position of `s`. */
  lemma ContainsIffOccurs(s: string, sub: string)
    ensures Contains(s, sub) <==> exists i :: OccursAt(s, sub, i)
  {
    if Contains(s, sub) {
      var i := ContainsImpliesOccurs(s, sub);
    }
    forall i | OccursAt(s, sub, i)
      ensures Contains(s, sub)
    {
      OccursImpliesContains(s, sub, i);
    }
  }

  /** Searches positions `k, k - 1, ..., 0` for the last occurrence. */
  function RfindFrom(s: string, sub: string, k: int): (r: int)
    requires k <= |s| - |sub|
    ensures r == -1 || (0 <= r <= k && OccursAt(s, sub, r))
    ensures forall j :: r < j <= k ==> !OccursAt(s, sub, j)
    decreases k + 1
  {
    if k < 0 then -1
    else if s[k..k + |sub|] == sub then k
    else RfindFrom(s, sub, k - 1)
  }

  /** Python's `s.rfind(sub)`: the start of the last occurrence, or -1. */
  function Rfind(s: string, sub: string): (r: int)
    ensures r == -1 || OccursAt(s, sub, r)
    ensures forall j :: OccursAt(s, sub, j) ==> j <= r
  {
    if |sub| <= |s| then RfindFrom(s, sub, |s| - |sub|) else -1
  }

  /** Searches positions `k, k + 1, ...` for the first occurrence. */
  function FindFrom(s: string, sub: string, k: nat): (r: int)
    ensures r == -1 || (k <= r && OccursAt(s, sub, r))
    ensures forall j :: k <= j && OccursAt(s, sub, j) ==> 0 <= r <= j
    decreases |s| - k
  {
    if k + |sub| > |s| then -1
    else if s[k..k + |sub|] == sub then k
    else FindFrom(s, sub, k + 1)
  }

  /** Python's `s.find(sub)`. */
  function Find(s: string, sub: string): (r: int)
    ensures r == -1 || OccursAt(s, sub, r)
    ensures forall j :: OccursAt(s, sub, j) ==> 0 <= r <= j
  {
    FindFrom(s, sub, 0)
  }

  // ---------------------------------------------------------------------------
  // str.split(sep)

  /** `sep.join(parts)`. */
  function Join(parts: seq<string>, sep: string): string
    requires |parts| >= 1
    decreases |parts|
  {
    if |parts| == 1 then parts[0] else parts[0] + sep + Join(parts[1..], sep)
  }

  /** Python's `s.split(sep)` for a non-empty separator: cut at the leftmost
      non-overlapping occurrences. The pieces join back to `s` and none of them holds
      the separator. */
  function Split(s: string, sep: string): (parts: seq<string>)
    requires |sep| > 0
    ensures |parts| >= 1
    ensures Join(parts, sep) == s
    ensures forall k, j :: 0 <= k < |parts| ==> !OccursAt(parts[k], sep, j)
    ensures |parts| == 1 <==> Find(s, sep) < 0
    ensures |parts| > 1 ==> Find(s, sep) == |parts[0]|
    ensures forall k :: 0 <= k < |parts| - 1 ==> Find(parts[k] + sep, sep) == |parts[k]|
    decreases |s|
  {
    var i := Find(s, sep);
    if i < 0 then
      assert SplitFacts(s, sep, [s]);
      [s]
    else
      var rest := Split(s[i + |sep|..], sep);
      SplitCons(s, sep, rest);
      [s[..i]] + rest
  }

  /** What `Split` promises, as one statement about a candidate list of pieces. */
  ghost predicate SplitFacts(s: string, sep: string, parts: seq<string>)
    requires |sep| > 0
  {
    && |parts| >= 1
    && Join(parts, sep) == s
    && (forall k, j :: 0 <= k < |parts| ==> !OccursAt(parts[k], sep, j))
    && (|parts| == 1 <==> Find(s, sep) < 0)
    && (|parts| > 1 ==> Find(s, sep) == |parts[0]|)
    && (forall k :: 0 <= k < |parts| - 1 ==> Find(parts[k] + sep, sep) == |parts[k]|)
  }

  /** The text before the first separator, followed by the pieces of the text after
      it, are the pieces of the whole. */
  lemma SplitCons(s: string, sep: string, rest: seq<string>)
    requires |sep| > 0 && Find(s, sep) >= 0
    requires SplitFacts(s[Find(s, sep) + |sep|..], sep, rest)
    ensures SplitFacts(s, sep, [s[..Find(s, sep)]] + rest)
  {
    var i := Find(s, sep);
    var parts := [s[..i]] + rest;
    assert parts[1..] == rest;
    assert Join(parts, sep) == s[..i] + sep + Join(rest, sep);
    CutAround(s, sep, i);
    forall k, j | 0 <= k < |parts|
      ensures !OccursAt(parts[k], sep, j)
    {
      if k > 0 {
        assert parts[k] == rest[k - 1];
      } else if OccursAt(s[..i], sep, j) {
        assert s[..i][j..j + |sep|] == s[j..j + |sep|];
        assert OccursAt(s, sep, j);
      }
    }
    forall k | 0 <= k < |parts| - 1
      ensures Find(parts[k] + sep, sep) == |parts[k]|
    {
      if k > 0 {
        assert parts[k] == rest[k - 1];
      } else {
        FindInPrefix(s, sep, i);
      }
    }
  }

  /** A text is what comes before an occurrence, the occurrence, and what follows. */
  lemma CutAround(s: string, sub: string, i: int)
    requires OccursAt(s, sub, i)
    ensures s == s[..i] + sub + s[i + |sub|..]
  {
    assert s[i..i + |sub|] == sub;
  }

  /** `r` can end a split of `s`: a suffix of the text holding no separator, either
      the whole text or preceded by a separator. */
  ghost predicate EndPiece(s: string, sep: string, r: string) {
    && |r| <= |s| && s[|s| - |r|..] == r
    && (forall j :: !OccursAt(r, sep, j))
    && (r == s || OccursAt(s, sep, |s| - |r| - |sep|))
  }

  /** `s.split(sep)[-1]` is what follows the last cut. */
  lemma LastOfSplit(s: string, sep: string)
    requires |sep| > 0
    ensures EndPiece(s, sep, Last(Split(s, sep)))
  {
    PiecesEnd(s, sep, Split(s, sep));
  }

  /** The same for any list of pieces that meets the contract of `Split`. */
  lemma PiecesEnd(s: string, sep: string, parts: seq<string>)
    requires |sep| > 0 && SplitFacts(s, sep, parts)
    ensures EndPiece(s, sep, Last(parts))
  {
    JoinLast(parts, sep);
  }

  /** Joining ends with the last piece, after a separator when there are several. */
  lemma {:induction false} JoinLast(parts: seq<string>, sep: string)
    requires |parts| >= 1
    ensures JoinEnd(Join(parts, sep), sep, parts)
    decreases |parts|
  {
    if |parts| > 1 {
      var s := Join(parts, sep);
      var rest := parts[1..];
      JoinLast(rest, sep);
      assert s == parts[0] + sep + Join(rest, sep);
      var i := |parts[0]|;
      assert OccursAt(s, sep, i) by {
        assert s[i..i + |sep|] == sep;
      }
      assert s[..i] == parts[0];
      assert s[i + |sep|..] == Join(rest, sep);
      JoinEndCons(s, sep, i, rest);
      assert [parts[0]] + rest == parts;
    }
  }

  /** `parts` ends with a suffix of `s`, the whole of `s` when it is the only piece
      and preceded by a separator otherwise. */
  ghost predicate JoinEnd(s: string, sep: string, parts: seq<string>) {
    && |parts| >= 1
    && |Last(parts)| <= |s|
    && s[|s| - |Last(parts)|..] == Last(parts)
    && (|parts| == 1 ==> Last(parts) == s)
    && (|parts| > 1 ==> OccursAt(s, sep, |s| - |Last(parts)| - |sep|))
  }

  lemma JoinEndCons(s: string, sep: string, i: nat, rest: seq<string>)
    requires OccursAt(s, sep, i)
    requires JoinEnd(s[i + |sep|..], sep, rest)
    ensures JoinEnd(s, sep, [s[..i]] + rest)
  {
    var t := s[i + |sep|..];
    var parts := [s[..i]] + rest;
    var last := Last(rest);
    assert Last(parts) == last;
    var e := |s| - |last|;
    assert s[e..] == t[|t| - |last|..];
    if |rest| == 1 {
      assert |last| == |t| == |s| - i - |sep|;
    } else {
      var e' := |t| - |last|;
      assert s[e - |sep|..e] == t[e' - |sep|..e'];
    }
  }

  function Last<T>(xs: seq<T>): T
    requires |xs| > 0
  {
    xs[|xs| - 1]
  }

  /** Cutting `s` just after its first separator keeps that separator first: each cut
      of `Split` is at the leftmost occurrence in the text that remains. */
  lemma FindInPrefix(s: string, sep: string, i: nat)
    requires Find(s, sep) == i
    ensures Find(s[..i] + sep, sep) == i
  {
    assert OccursAt(s, sep, i);
    var t := s[..i] + sep;
    assert t == s[..i + |sep|];
    assert OccursAt(t, sep, i) by {
      assert t[i..i + |sep|] == sep;
    }
    var r := Find(t, sep);
    assert 0 <= r <= i;
    assert OccursAt(t, sep, r);
    assert OccursAt(s, sep, r) by {
      assert t[r..r + |sep|] == s[r..r + |sep|];
    }
    assert i <= r;
  }

  // ---------------------------------------------------------------------------
  // re.split(r'(\s\s)+', s)

  /** The pattern `\s\s` matches at `i`. */
  predicate PairAt(s: string, i: int) {
    0 <= i && i + 1 < |s| && IsSpace(s[i]) && IsSpace(s[i + 1])
  }

  /** The leftmost position at or after `k` where `\s\s` matches, or `|s|`. */
  function FirstPair(s: string, k: nat): (p: nat)
    requires k <= |s|
    ensures k <= p <= |s|
    ensures p < |s| ==> PairAt(s, p)
    ensures forall j :: k <= j < p ==> !PairAt(s, j)
    decreases |s| - k
  {
    if k == |s| then k
    else if PairAt(s, k) then k
    else FirstPair(s, k + 1)
  }

  /** No whitespace pair anywhere in `s`. */
  predicate NoPair(s: string) {
    forall j :: 0 <= j < |s| ==> !PairAt(s, j)
  }

  /** A captured separator: two whitespace characters. */
  predicate Separator(s: string) {
    |s| == 2 && Blank(s)
  }

  /** The shape of a `re.split` result with one capturing group: pieces at even
      positions, captured separators at odd positions. */
  predicate SplitShape(parts: seq<string>) {
    && |parts| % 2 == 1
    && (forall k :: 0 <= k < |parts| && k % 2 == 1 ==> Separator(parts[k]))
    && (forall k :: 0 <= k < |parts| && k % 2 == 0 ==> NoPair(parts[k]))
  }

  lemma SplitShapeCons(a: string, b: string, rest: seq<string>)
    requires NoPair(a) && Separator(b) && SplitShape(rest)
    ensures SplitShape([a, b] + rest)
  {
    var parts := [a, b] + rest;
    forall k | 2 <= k < |parts|
      ensures parts[k] == rest[k - 2] && (k % 2 == (k - 2) % 2)
    {
    }
  }

  /** Length of the greedy match of `(\s\s)+` at `p`: whitespace taken two characters
      at a time for as long as a pair is there (0 when none is). */
  function MatchLength(s: string, p: nat): (m: nat)
    requires p <= |s|
    ensures p + m <= |s| && m % 2 == 0
    ensures PairAt(s, p) ==> 2 <= m
    ensures forall j :: p <= j < p + m ==> IsSpace(s[j])
    ensures !PairAt(s, p + m)
    decreases |s| - p
  {
    if PairAt(s, p) then 2 + MatchLength(s, p + 2) else 0
  }

  /** Python's `re.split(r'(\s\s)+', s)`. The match starts at the leftmost whitespace
      pair and, being greedy, takes the longest even-length prefix of that whitespace
      run; the capturing group contributes its last repetition (two whitespace
      characters) between the pieces. */
  function RegexSplit(s: string): (parts: seq<string>)
    decreases |s|
  {
    var p := FirstPair(s, 0);
    if p == |s| then [s]
    else
      var m := MatchLength(s, p);
      [s[..p], s[p + m - 2..p + m]] + RegexSplit(s[p + m..])
  }

  /** One match of the pattern: where it cuts `s` and what the group captures. */
  lemma PairMatch(s: string, p: nat) returns (m: nat)
    requires p == FirstPair(s, 0) < |s|
    ensures PairAt(s, p) && m == MatchLength(s, p)
    ensures 2 <= m && p + m <= |s|
    ensures Separator(s[p + m - 2..p + m])
    ensures RegexSplit(s) == [s[..p], s[p + m - 2..p + m]] + RegexSplit(s[p + m..])
  {
    m := MatchLength(s, p);
    assert PairAt(s, p) && 2 <= m && p + m <= |s|;
    MatchSeparator(s, p, m);
    assert RegexSplit(s) == [s[..p], s[p + m - 2..p + m]] + RegexSplit(s[p + m..]);
  }

  /** The last two characters of a whitespace match are a separator. */
  lemma MatchSeparator(s: string, p: nat, m: nat)
    requires 2 <= m && p + m <= |s| && forall j :: p <= j < p + m ==> IsSpace(s[j])
    ensures Separator(s[p + m - 2..p + m])
  {
    var b := s[p + m - 2..p + m];
    assert b[0] == s[p + m - 2] && b[1] == s[p + m - 1];
  }

  /** The text in front of the leftmost pair holds no pair. */
  lemma BeforeFirstPair(s: string, p: nat)
    requires p == FirstPair(s, 0)
    ensures NoPair(s[..p])
  {
    forall j | 0 <= j < p
      ensures !PairAt(s[..p], j)
    {
      assert !PairAt(s, j);
    }
  }

  /** Pieces alternate with captured separators, and no piece holds a whitespace
      pair. */
  lemma {:induction false} RegexSplitShape(s: string)
    ensures SplitShape(RegexSplit(s))
    decreases |s|
  {
    var p := FirstPair(s, 0);
    BeforeFirstPair(s, p);
    if p == |s| {
      assert s[..p] == s;
    } else {
      var m := PairMatch(s, p);
      RegexSplitShape(s[p + m..]);
      SplitShapeCons(s[..p], s[p + m - 2..p + m], RegexSplit(s[p + m..]));
    }
  }

  // ---------------------------------------------------------------------------
  // Decimal numerals: f'{n}' and int(s)

  predicate IsDigit(c: char) {
    '0' <= c <= '9'
  }

  predicate AllDigits(s: string) {
    forall i :: 0 <= i < |s| ==> IsDigit(s[i])
  }

  function DigitChar(d: nat): (c: char)
    requires d < 10
    ensures IsDigit(c) && c as int - '0' as int == d
  {
    ('0' as int + d) as char
  }

  /** The value of a string of decimal digits. */
  function DigitsValue(s: string): nat
    requires AllDigits(s)
    decreases |s|
  {
    if |s| == 0 then 0
    else DigitsValue(s[..|s| - 1]) * 10 + (s[|s| - 1] as int - '0' as int)
  }

  /** Python's `str(n)` for a natural number. */
  function Decimal(n: nat): (s: string)
    ensures |s| >= 1 && AllDigits(s)
    ensures DigitsValue(s) == n
    decreases n
  {
    if n < 10 then [DigitChar(n)]
    else
      var s := Decimal(n / 10) + [DigitChar(n % 10)];
      assert s[..|s| - 1] == Decimal(n / 10);
      s
  }

  lemma DecimalInjective(m: nat, n: nat)
    requires Decimal(m) == Decimal(n)
    ensures m == n
  {
  }

  /** The ASCII information separators U+001C to U+001F: `str.isspace()` holds for
      them, but `int` does not skip them as whitespace (it skips only ASCII
      ` \t\n\v\f\r` and non-ASCII whitespace). */
  predicate IsInfoSeparator(c: char) {
    '\U{1C}' <= c <= '\U{1F}'
  }

  /** Python's `int(s)` on the short strings it is given here: surrounding whitespace
      is ignored, then an optional sign and at least one decimal digit. An information
      separator is neither whitespace to `int` nor a digit or sign, so wherever one
      stands `int` raises. */
  function ParseInt(s: string): (r: Option<int>)
    ensures r.Some? ==> |Strip(s)| >= 1
    ensures r.Some? ==> forall i :: 0 <= i < |s| ==> !IsInfoSeparator(s[i])
  {
    if exists i :: 0 <= i < |s| && IsInfoSeparator(s[i]) then None
    else ParseStripped(Strip(s))
  }

  /** `int` on the text between the surrounding whitespace: an optional sign, then
      at least one decimal digit. */
  function ParseStripped(t: string): Option<int> {
    if |t| >= 1 && AllDigits(t) then Some(DigitsValue(t))
    else if |t| >= 2 && (t[0] == '+' || t[0] == '-') && AllDigits(t[1..]) then
      var v: int := DigitsValue(t[1..]);
      Some(if t[0] == '-' then -v else v)
    else None
  }

  lemma ParseIntDecimal(n: nat)
    ensures ParseInt(Decimal(n)) == Some(n)
  {
    var s := Decimal(n);
    assert SpaceRun(s, 0) == 0 by {
      assert !IsSpace(s[0]);
    }
    assert SpaceRunBack(s, 0, |s|) == |s| by {
      assert !IsSpace(s[|s| - 1]);
    }
    assert Strip(s) == s;
    assert forall i :: 0 <= i < |s| ==> !IsInfoSeparator(s[i]) by {
      forall i | 0 <= i < |s|
        ensures !IsInfoSeparator(s[i])
      {
        assert IsDigit(s[i]);
      }
    }
  }

  /** `int` rejects a stripped text holding anything but digits after an optional
      leading sign: `int('ab')`, `int('1-')`, `int('-')` and `int('')` all raise. */
  lemma ParseIntRejects(s: string, i: nat)
    requires i < |Strip(s)| && !IsDigit(Strip(s)[i])
    requires i > 0 || |Strip(s)| == 1 || (Strip(s)[0] != '+' && Strip(s)[0] != '-')
    ensures ParseInt(s) == None
  {
    var t := Strip(s);
    assert !AllDigits(t);
    if i > 0 {
      assert !AllDigits(t[1..]) by { assert t[1..][i - 1] == t[i]; }
    }
  }

  /** A text that strips to nothing is rejected. */
  lemma ParseIntBlank(s: string)
    requires Blank(s)
    ensures ParseInt(s) == None
  {
    StripBlankThenWord(s, []);
    assert s + [] == s;
  }

  /** A sign in front of a decimal: `int('-12') == -12`, `int('+12') == 12`. */
  lemma ParseIntSigned(n: nat)
    ensures ParseInt("-" + Decimal(n)) == Some(-(n as int))
    ensures ParseInt("+" + Decimal(n)) == Some(n)
  {
    SignedDecimal('-', n);
    SignedDecimal('+', n);
  }

  lemma SignedDecimal(c: char, n: nat)
    requires c == '-' || c == '+'
    ensures ParseInt([c] + Decimal(n)) == Some(if c == '-' then -(n as int) else n)
  {
    ParseIntSignedDigits(c, Decimal(n), n);
  }

  /** Leading zeros do not change the value: `int('05') == 5`. */
  lemma ParseIntPadded(z: nat, n: nat)
    ensures ParseInt(Zeros(z) + Decimal(n)) == Some(n)
  {
    ZerosValue(z, Decimal(n));
    ParseIntDigits(Zeros(z) + Decimal(n));
  }

  /** A run of digits with nothing around it reads as its value. */
  lemma ParseIntDigits(t: string)
    requires |t| >= 1 && AllDigits(t)
    ensures ParseInt(t) == Some(DigitsValue(t))
  {
    DigitsPlain(t);
    assert Strip(t) == t by {
      StripBlankThenWord([], t);
      assert [] + t == t;
    }
  }

  /** A sign followed by a run of digits reads as the signed value. */
  lemma ParseIntSignedDigits(c: char, d: string, v: nat)
    requires (c == '-' || c == '+') && |d| >= 1 && AllDigits(d) && DigitsValue(d) == v
    ensures ParseInt([c] + d) == Some(if c == '-' then -(v as int) else v)
  {
    var t := [c] + d;
    DigitsPlain(d);
    assert t[1..] == d;
    assert forall i :: 0 <= i < |t| ==> !IsInfoSeparator(t[i]) by {
      forall i | 0 <= i < |t|
        ensures !IsInfoSeparator(t[i])
      {
        if i > 0 { assert t[i] == d[i - 1]; }
      }
    }
    assert Strip(t) == t by {
      assert t[|t| - 1] == d[|d| - 1];
      StripBlankThenWord([], t);
      assert [] + t == t;
    }
    ParseStrippedSigned(c, d, v);
  }

  lemma ParseStrippedSigned(c: char, d: string, v: nat)
    requires (c == '-' || c == '+') && |d| >= 1 && AllDigits(d) && DigitsValue(d) == v
    ensures ParseStripped([c] + d) == Some(if c == '-' then -(v as int) else v)
  {
    var t := [c] + d;
    assert t[0] == c && !IsDigit(t[0]);
    assert t[1..] == d;
  }

  /** Digits are neither whitespace nor information separators. */
  lemma DigitsPlain(t: string)
    requires AllDigits(t)
    ensures forall i :: 0 <= i < |t| ==> !IsSpace(t[i]) && !IsInfoSeparator(t[i])
  {
  }

  /** `z` zero digits. */
  function Zeros(z: nat): (r: string)
    ensures |r| == z && AllDigits(r)
    ensures forall i :: 0 <= i < z ==> r[i] == '0'
  {
    seq(z, _ => '0')
  }

  lemma {:induction false} ZerosValue(z: nat, d: string)
    requires AllDigits(d)
    ensures AllDigits(Zeros(z) + d) && DigitsValue(Zeros(z) + d) == DigitsValue(d)
    decreases z
  {
    assert AllDigits(Zeros(z) + d) by {
      forall i | 0 <= i < z + |d|
        ensures IsDigit((Zeros(z) + d)[i])
      {
        if i >= z { assert (Zeros(z) + d)[i] == d[i - z]; }
      }
    }
    if z > 0 {
      ZerosValue(z - 1, d);
      var x := Zeros(z - 1) + d;
      assert Zeros(z) == "0" + Zeros(z - 1);
      assert Zeros(z) + d == "0" + x;
      LeadingZeroValue(x);
      assert DigitsValue(Zeros(z) + d) == DigitsValue("0" + x) == DigitsValue(x);
    } else {
      assert Zeros(z) + d == d;
    }
  }

  lemma {:induction false} LeadingZeroValue(d: string)
    requires AllDigits(d)
    ensures AllDigits("0" + d) && DigitsValue("0" + d) == DigitsValue(d)
    decreases |d|
  {
    var t := "0" + d;
    assert AllDigits(t) by {
      forall i | 0 <= i < |t|
        ensures IsDigit(t[i])
      {
        if i > 0 { assert t[i] == d[i - 1]; }
      }
    }
    if |d| > 0 {
      var front := d[..|d| - 1];
      LeadingZeroValue(front);
      assert t[..|t| - 1] == "0" + front;
    }
  }

  /** `int('\x1c5')` raises although `'\x1c5'.strip()` is `'5'`. */
  lemma ParseIntInfoSeparator(d: char)
    requires IsDigit(d)
    ensures ParseInt(['\U{1C}', d]) == None
  {
    assert IsInfoSeparator(['\U{1C}', d][0]);
  }

  predicate IsComma(c: char) {
    c == ','
  }

  /** `re.sub(',', '', s)`: every comma removed, the other characters kept in order. */
  function RemoveCommas(s: string): (r: string)
    ensures forall i :: 0 <= i < |r| ==> r[i] != ','
    ensures |s| == 1 ==> r == if s[0] == ',' then [] else s
  {
    RemoveAll(s, IsComma)
  }

  lemma RemoveCommasAppend(a: string, b: string)
    ensures RemoveCommas(a + b) == RemoveCommas(a) + RemoveCommas(b)
  {
    RemoveAllAppend(a, b, IsComma);
  }

}

=== FILE: tree.dfy ===
/** The nested tree the loader builds from a SPECS `.xy` export, and the markers that
    delimit its levels. */
module Tree {
  import opened OrderedMap

  /** The exact (stripped) line that ends the global header. */
  const Sentinel := "#   Time Zone Format:         UTC"
  /** Substrings whose presence in a line marks a structural boundary. */
  const GroupMarker := "Group"
  const OrdinateMarker := "OrdinateRange:"
  const RegionMarker := "Region:"
  const CycleMarker := "Cycle:"
  /** The name under which the lines before the first `Cycle:` line are stored. */
  const FirstCycleName := "Cycle: 0, Curve: 0"
  /** The parameter key that receives the captured column label. */
  const ColumnLabelsKey := "ColumnLabels:"

  /** One data row: the two fields that Python's `float` accepted, kept as text. */
  datatype Row = Row(ordinate: string, value: string)

  /** A value in a trial dictionary: a trial setting (a string), or a cycle entry, the
      two-element list `[parameters, rows]`. */
  datatype Value = Scalar(text: string) | Curve(params: OMap<string>, rows: seq<Row>)

  /** Trial settings and cycle entries in one dictionary. */
  type Trial = OMap<Value>
  /** Trial name (`Trial 1`, `Trial 2`, ...) to trial. */
  type Group = OMap<Trial>

  /** What `load_xy` returns: `{'settings': ..., 'groups': ...}`. */
  datatype Document = Document(settings: OMap<string>, groups: OMap<Group>)

  /** The exceptions `load_xy` lets escape. */
  datatype ParseError =
    | MissingSentinel       // `list.index` raises ValueError
    | MissingRegion         // `group_R_indexes[i]` raises IndexError
    | NotANumber(line: string)  // `float` raises ValueError
}

=== FILE: wrappers.dfy ===
/** Option and Result, the failure-compatible wrappers used throughout the model.
    A Python exception becomes an `Err`; a value that may be absent becomes an `Option`. */
module Wrappers {

  datatype Option<+T> = None | Some(value: T)

  datatype Result<+T, +E> = Ok(value: T) | Err(error: E) {

    predicate IsFailure() {
      Err?
    }

    function PropagateFailure<U>(): Result<U, E>
      requires Err?
    {
      Err(error)
    }

    function Extract(): T
      requires Ok?
    {
      value
    }
  }
}
